=== FILE: README.md ===
# loppel, modelled in Dafny

loppel is a small command-line tool that backs up a file or a directory
next to itself and restores it again. A plain backup of `foo` is a copy
named `foo.bak` (file) or `foo.bak.d` (directory tree). A compressed
backup is a zstd-compressed tar archive named `foo.tar.zstd`. `restore`
decides from the artifact's name how to read it back. Both commands can
delete their input afterwards, after a `y/N` question unless `-y` is
given. When the first argument is a bare path, `main` inserts the
`backup` or `restore` subcommand itself.

The model covers the logic of `src/main.rs` in nine modules, one file each:

- `text.dfy`
  - `Wrappers`: `Option` and `Result`.
  - `Text`: the string operations the tool uses (`starts_with`, `ends_with`, `strip_suffix`, `contains`, `trim`, `to_lowercase`) on ASCII text.
- `paths.dfy`, `Paths`
  - A path is a sequence of components, the normalised form of a Rust `PathBuf`. It can be displayed and parsed back.
  - It has Rust's `file_name`, `with_file_name`, `push` and `join`.
  - Resolution against a working directory is lexical.
- `naming.dfy`, `Naming`: artifact names.
  - `add_extension`, `remove_extension`, and the suffix each kind of backup gets.
  - `remove_archive_ending`, as a method with the loop over the archive endings.
- `classify.dfy`, `Classify`: the decision in `restore` between archive, `.bak`, `.bak.d` and unknown names, as the function `Classify.Classify`.
- `filesystem.dfy`, `FileSystem`: the filesystem as a value.
  - A node is a file with bytes, a directory mapping names to nodes, or something else (a symlink or a device).
  - Operations: `fs::copy` is `CopyFile`, `fs::create_dir_all` is `CreateDirAll`, and the error of opening a file for writing is `CreateError`.
- `treecopy.dfy`, `TreeCopy`: `copy_dir_all`.
  - `CopyTree` loops over a directory's entries. `CopyEntry` and `CopyDirEntry` copy one entry each, and `CopyDirEntry` recurses into `CopyTree` for a subdirectory.
  - They are proved against a specification function of the tree they produce, on success and on failure.
- `prompt.dfy`, `Prompt`: `confirm`. The answer the lines typed give is the function `Confirm`; the question loop is the method `AskConfirm`.
  - A method with the question loop, proved against a function over the input lines.
  - Lemmas show that answers accumulate in the buffer.
- `args.dfy`, `Args`: the subcommand inserted in front of a bare path argument, as a method.
- `orchestrate.dfy`, `Orchestrate`: `backup_file` is `BackupFile`, `backup_dir` is `BackupDir`, `backup` is `Backup`, `restore` is `Restore`, `recursive_remove` is `RecursiveRemove`, and `make_archive` is `MakeArchive`.
  - One run of `main` is `Run`: `Perform` does the backup or restore, and `Gate` decides the deletion.
  - Making and reading archives is an opaque `Codec` that can fail.

Behaviours of the code worth knowing, which the model follows:

- **Existing destination.** `copy_dir_all` into an existing destination keeps entries the source does not have. Entries of the same name are overwritten or merged (`TreeCopy.CopyDirAllMerges`). The destination is not replaced by a mirror.
- **Chained endings.** `remove_archive_ending` strips `.tar.zstd` and then `.tar.zst`, so `x.tar.zst.tar.zstd` loses both endings (`Naming.StemOfChainedEndings`).
- **Undotted suffixes.** The suffix tests in `restore` have no leading dot. So `foobak` is taken for a `.bak` file and then panics in `remove_extension`, and `footar.zst` is taken for an archive and keeps its whole name.

## Model

| member | source | states |
|---|---|---|
| Text.StripSuffix | src/main.rs:189 | there is a result exactly when the text ends with the suffix, and the result followed by the suffix is the text |
| Text.ContainsAt | src/main.rs:95 | an occurrence of the pattern at any index makes `contains` true |
| Text.ContainsIff | src/main.rs:95 | `str::contains` holds exactly when the text occurs at some index |
| Text.TrimStart | src/main.rs:157 | the result is a suffix of the input that does not start with whitespace, and every character dropped is whitespace |
| Text.TrimEnd | src/main.rs:157 | the result is a prefix of the input that does not end with whitespace, and every character dropped is whitespace |
| Text.LowerChar | src/main.rs:157 | an upper-case ASCII letter becomes the lower-case letter at the same place in the alphabet; every other character is unchanged |
| Text.Lower | src/main.rs:157 | lower-casing keeps the length and lower-cases every character in place |
| Paths.Parse | src/main.rs:192 | parsing text always gives a well-formed path |
| Paths.ParseDisplay | src/main.rs:187-193 | displaying a well-formed path and parsing the text gives the same path back |
| Paths.FileName | src/main.rs:178-180 | the file name is the last component when that is a normal name; otherwise there is none |
| Paths.DisplayWithFileName | src/main.rs:184 | replacing the file name by itself plus a postfix appends the postfix to the displayed text |
| Paths.WithFileNameValid | src/main.rs:184 | a valid new name keeps the path well-formed and becomes its file name |
| Paths.ResolveLast | src/main.rs:184 | a path with a file name resolves to a location ending in that name; replacing the name changes only the last element of the location |
| Paths.ResolveJoin | src/main.rs:241 | joining a valid name onto a path resolves to the path's location plus that name, and keeps the path well-formed |
| Paths.ResolvePush | src/main.rs:233 | pushing a relative path walks its components from the base path's location |
| Naming.AddExtension | src/main.rs:177-185 | defined exactly when there is a file name; same root and same number of components; only the last component changes, and it becomes the old name plus the postfix |
| Naming.DisplayAddExtension | src/main.rs:177-185 | the displayed artifact name is the displayed path plus the postfix |
| Naming.RemoveExtension | src/main.rs:187-193 | defined exactly when the displayed path ends in `"." + suffix`; otherwise the source panics |
| Naming.RemoveAfterAdd | src/main.rs:177-193 | for a well-formed path with a file name, removing `s` undoes adding `"." + s` |
| Naming.PlainNamesUndone | src/main.rs:187-193 | removing `bak` undoes the `.bak` name, and removing `bak.d` undoes the `.bak.d` name |
| Naming.StripEndings | src/main.rs:363-367 | the result is a prefix of the text |
| Naming.RemoveArchiveEnding | src/main.rs:354-369 | the loop truncates the text exactly as the archive-stem function does, and the result is that text parsed |
| Naming.StemOfShortEnding | src/main.rs:363-366 | `x.tar.zst` loses its ending |
| Naming.StemOfCompressedName | src/main.rs:354-369 | `x.tar.zstd` becomes `x` unless `x` itself ends in `.tar.zst` |
| Naming.StemOfChainedEndings | src/main.rs:360-367 | `x.tar.zst.tar.zstd` loses both endings |
| Naming.StemWithoutEnding | src/main.rs:363-367 | text with neither ending is returned unchanged |
| Naming.StemOfCompressedArchiveName | src/main.rs:354-369 | compressing `x.tar.zst` gives a name whose stem is `x`, not `x.tar.zst` |
| Classify.ClassifyCompressedText | src/main.rs:225 | any text ending `.tar.zstd` is an archive |
| Classify.ClassifyFileText | src/main.rs:235 | any text ending `.bak` is a plain file artifact |
| Classify.ClassifyDirText | src/main.rs:244 | any text ending `.bak.d` is a plain directory artifact |
| Classify.BackupNameClassified | src/main.rs:224-253 | every name the backup naming produces is classified as the kind of backup that made it |
| Classify.UndottedBakPanics | src/main.rs:235-241 | `foobak` is taken for a `.bak` file but has no `.bak` to remove |
| Classify.UndottedArchiveKeepsName | src/main.rs:225-233 | `footar.zst` is taken for an archive but keeps its whole name as its stem |
| Classify.PlainFileWithoutDotPanics | src/main.rs:187-193 | a name classified as `.bak` that does not end in `.bak` panics in `remove_extension` |
| FileSystem.CreateError | src/main.rs:308 | a location that cannot be opened for writing fails with `NotFound` or `NotADirectory`; a single name that cannot be opened fails with `NotADirectory` |
| FileSystem.CreateErrorKinds | src/main.rs:308 | opening fails with `NotFound` exactly when a name on the way is missing from its directory, and with `NotADirectory` exactly when a name on the way is something other than a directory |
| FileSystem.ParentNotADirectory | src/main.rs:308 | opening a location whose parent exists but is not a directory fails with `NotADirectory` |
| FileSystem.CopyFile | src/main.rs:264 | a successful copy needs a file at the source, no directory at the target, and an existing parent directory |
| FileSystem.CreateDirAllMakesDir | src/main.rs:282 | after success the location is a directory; an existing directory is unchanged |
| FileSystem.CreateDirAllNew | src/main.rs:282 | a missing name in a directory becomes an empty directory |
| FileSystem.CreateDirAllExisting | src/main.rs:282 | an existing directory leaves the tree unchanged |
| FileSystem.CreateDirAllBlocked | src/main.rs:282 | a file or other node in the way is an error |
| FileSystem.LookupRemoved | src/main.rs:166-175 | after removal nothing is at the location |
| FileSystem.LookupRemoveElsewhere | src/main.rs:166-175 | removal changes nothing at locations outside the removed subtree |
| FileSystem.RemoveKeepsParent | src/main.rs:166-175 | removing an entry leaves its parent directory in place |
| TreeCopy.Pruned | src/main.rs:288-297 | pruning keeps the kind of node, keeps files as they are, and keeps only directory entries that are not other nodes |
| TreeCopy.CopiedNode | src/main.rs:284-297 | a file replaces anything but a directory; a directory merges into a directory or is created fresh; a directory onto a file fails |
| TreeCopy.MergeInto | src/main.rs:281-300 | a successful merge has the old names plus the copied names, and keeps old entries the source does not have |
| TreeCopy.CopyTree | src/main.rs:283-299 | succeeds exactly when the merge specification does, and then leaves the merged directory; on an error the destination is still a directory, nothing outside it has changed, and its entries are a `PartialCopy`: some entries were copied, the copy of one more entry fails, and every other entry is as before (nothing is rolled back, nothing after the failure is copied) |
| TreeCopy.PartialCopyLeaves | src/main.rs:283-298 | after a copy stopped at a failing entry, every other entry holds its copied node if it was copied and its old content otherwise, and the whole merge fails |
| TreeCopy.CopyEntry | src/main.rs:284-297 | one entry: succeeds exactly when copying that entry can, and then the destination holds the copied entry under its name; on a failure no other entry of the destination has changed |
| TreeCopy.CopyDirEntry | src/main.rs:288-289 | a subdirectory entry is created if needed and then copied into recursively, succeeding exactly when copying that entry can; on a failure no other entry of the destination has changed |
| TreeCopy.CopyDirAll | src/main.rs:281-300 | succeeds exactly when the specification does, and then leaves the specified tree |
| TreeCopy.MergeFails | src/main.rs:281-300 | one entry that cannot be copied makes the whole copy fail |
| TreeCopy.PrunedIdempotent | src/main.rs:288-297 | pruning twice is pruning once |
| TreeCopy.CopiedFresh | src/main.rs:281-300 | copying onto nothing gives the pruned source |
| TreeCopy.CopiedTwice | src/main.rs:281-300 | copying again onto a finished copy changes nothing |
| TreeCopy.CreateDirAllFresh | src/main.rs:282 | a missing destination in an existing directory is created empty |
| TreeCopy.CopyDirAllMirrors | src/main.rs:281-300 | copying a directory to a free location beside it puts the pruned source there and leaves the source as it was |
| TreeCopy.CopyDirAllMerges | src/main.rs:281-300 | on an existing destination, entries the source lacks stay, and each copied entry is the source entry copied onto the old one |
| TreeCopy.CopyDirAllElsewhere | src/main.rs:281-300 | a copy changes nothing outside the destination |
| TreeCopy.CopyDirAllNeedsDir | src/main.rs:283 | a source that is not a directory makes the copy fail |
| Prompt.AskConfirm | src/main.rs:151-164 | the loop returns the answer the specification gives for the same input lines |
| Prompt.NormalizeIdempotent | src/main.rs:157 | trimming and lower-casing a buffer that already is trimmed and lower-cased changes nothing |
| Prompt.StuckAtEndOfInput | src/main.rs:155-161 | at the end of input an undecided buffer stays the same forever |
| Prompt.NormalizeKeepsBuffer | src/main.rs:155-157 | appending a line never changes the text already in the buffer |
| Prompt.NormalizeWord | src/main.rs:157 | a lower-case word typed and ended with a newline is read as exactly that word |
| Prompt.DeadUndecided | src/main.rs:158-160 | a buffer that cannot grow into `yes` or `no` is neither answer |
| Prompt.DeadBufferStuck | src/main.rs:154-162 | once the buffer cannot grow into `yes` or `no`, no later input gives an answer |
| Prompt.EndOfInputDeclines | src/main.rs:155-159 | no input at all declines |
| Prompt.AnswersAccumulate | src/main.rs:155-158 | `ye` followed by `s` accepts |
| Prompt.UndecidedFirstLine | src/main.rs:154-162 | an undecided first line stays in the buffer for the next round |
| Prompt.FirstAnswerWrong | src/main.rs:154-162 | a first answer that cannot grow into `yes` or `no` leaves the question asked forever, whatever follows |
| Prompt.WrongAnswerSticks | src/main.rs:154-162 | `maybe` then `yes` never accepts |
| Args.InferredCommand | src/main.rs:95-99 | the inserted word is a subcommand: `restore` exactly when the argument contains `bak`, and `backup` otherwise |
| Args.RewriteArgs | src/main.rs:83-102 | fewer than two arguments means help and exit; otherwise the second argument afterwards is a flag or subcommand; a flag or subcommand is left alone; otherwise exactly one word, the inferred subcommand, is inserted at index 1 |
| Args.BakeryIsRestored | src/main.rs:86-101 | `bakery` is restored |
| Args.PlainBackupNamesRestore | src/main.rs:86-101 | a `.bak` or `.bak.d` name given alone is restored |
| Args.ArchiveNameIsBackedUp | src/main.rs:86-101 | a `.tar.zstd` name given alone, without a `b` in its stem, is backed up again |
| Orchestrate.Backup | src/main.rs:113-125 | a missing path (and only that) prints help and exits; an existing path that is neither file nor directory panics |
| Orchestrate.BackupNeedsFileName | src/main.rs:178-180 | an existing path with no file name panics |
| Orchestrate.ArtifactBesideSource | src/main.rs:177-185 | the artifact lies in the source's directory under the source's name plus the suffix, apart from the source |
| Orchestrate.ArchiveWritten | src/main.rs:302-318 | making an archive fills the archive file with the packed bytes and leaves the source alone |
| Orchestrate.FileCopied | src/main.rs:262-265 | a copy beside the source holds the source's bytes and leaves the source alone |
| Orchestrate.BackupKeepsSource | src/main.rs:257-279 | a successful backup creates the artifact named with the suffix for the source's kind, and the source is unchanged |
| Orchestrate.CompressedBackupHoldsArchive | src/main.rs:257-261 | a compressed backup holds exactly the packed bytes |
| Orchestrate.PlainFileBackup | src/main.rs:262-266 | a plain file backup adds a `.bak` copy with the same bytes |
| Orchestrate.PlainDirBackup | src/main.rs:274-278 | a plain directory backup to a free name adds a `.bak.d` copy of the pruned tree |
| Orchestrate.Restore | src/main.rs:195-255 | a missing artifact, a missing output, and an output that is not a directory are the three not-found errors, in that order, and the only ones; after them the name's kind decides, and a kind mismatch or an unknown name panics |
| Orchestrate.PlainTargetInOutput | src/main.rs:239-241 | a plain restore target is the output directory plus the stripped file name, a valid name |
| Orchestrate.RestoredFile | src/main.rs:235-243 | a restored `.bak` puts the artifact's bytes at its target (copying a file onto itself leaves it empty) |
| Orchestrate.RestoredDir | src/main.rs:244-251 | a restored `.bak.d` leaves a directory at its target, and at a free target that is the pruned artifact tree |
| Orchestrate.RestoredArchive | src/main.rs:225-234 | an archive restore unpacks the archive's bytes into the output directory and reports the output path with the stripped archive path pushed on |
| Orchestrate.CompressedRestoreTarget | src/main.rs:232-233 | for a path whose name does not end in `.tar.zst`, the reported target of its archive is that path pushed onto the output directory |
| Orchestrate.RestoreFileToFreeName | src/main.rs:235-243 | a `.bak` restored to a free name there gives a file with the artifact's bytes |
| Orchestrate.RestoreDirToFreeName | src/main.rs:244-251 | a `.bak.d` restored to a free name there gives a copy of the artifact's pruned tree |
| Orchestrate.RecursiveRemove | src/main.rs:166-175 | a file or directory is gone afterwards; any other node (in the model also a symlink) is skipped and nothing changes |
| Orchestrate.CwdPathResolves | src/main.rs:136 | the default output directory names the working directory |
| Orchestrate.Gate | src/main.rs:127-140 | a failed step is passed on untouched; a successful step stays successful unless the answer never comes, which hangs; deletion happens only after success, with `--delete`, and with `-y` or a yes; without an agreed deletion the step is returned unchanged |
| Orchestrate.BackupDeletionGated | src/main.rs:119-129 | after a successful backup the source is gone exactly when deletion was requested and agreed to, and the artifact remains |
| Orchestrate.PlainFileRoundTrip | src/tests.rs:57-90 | backing a file up with deletion and restoring the `.bak` into its directory gives the file back with the same bytes |
| Orchestrate.PlainDirRoundTrip | src/tests.rs:93-149 | backing a directory up with deletion and restoring the `.bak.d` into its directory gives back the tree without its other nodes |

## Left out

- **Raw path text.** Paths are modelled in Rust's normalised component form. Repeated or trailing separators and interior `.` components are not represented as text. `..` is resolved lexically, not through the filesystem.
  - One visible consequence: `restore foo.bak.d/` (with the trailing slash shell completion adds) makes the source panic with "unknown file", because the displayed text ends in `/` (src/main.rs:224-253). The model reads the normalised path `foo.bak.d` and restores it as a `.bak.d` directory.
- **Symlinks and special files.** These are one opaque kind of node. They are never followed, so `exists`, `is_dir` and `is_file` do not look through symlinks.
- Orchestrate.RecursiveRemove: the source removes a symlink with `remove_file` (src/main.rs:169). The model cannot tell a symlink from a device, so it keeps every opaque node. Inside `Run` this case does not arise, because a backup or restore of an opaque node panics or fails before anything is deleted.
- **Disk failures.** Permissions, full disks, and failures of removal or of `create_dir_all` part-way are not modelled. A failed `create_dir_all` leaves the tree unchanged.
- **Entries changing during the copy.** The model copies the whole source tree as it stood when the copy started. The source lists each subdirectory again when it recurses into it (src/main.rs:283, 289), so it sees entries an earlier step wrote there.
  - One visible consequence: with the destination inside its own source (`restore x.bak.d -o x.bak.d`), the source keeps descending into its own fresh copies until the system refuses the path, while the model succeeds.
  - Another: with source and destination the same (`restore /.bak.d/.bak.d -o /.bak.d`), the source empties every file, because `fs::copy` truncates a file copied onto itself. The model leaves the tree unchanged.
- **Listing order.** In the model the first failing entry is chosen arbitrarily. Which error kind a failed tree copy reports (`CopyFailed` in `Orchestrate`) is left open, because it depends on the listing order.
- **Archive contents.** `make_archive`, `read_archive`, tar and zstd are an opaque `Codec` whose steps may fail. Archive contents and compressed sizes are not modelled.
- **Non-UTF-8 paths.** The non-UTF-8 panic in `remove_archive_ending` cannot occur, because paths are Dafny strings.
- **Argument parsing.** Command-line parsing and help text (clap) are not modelled, and neither is the unwrap of a missing subcommand after the rewrite. The parsed command is a `Command` value.
- **Console I/O.** The question text, error messages and the verbose print of the created path are not modelled. Read errors on standard input are not modelled. The lines typed are a parameter.
- **Unicode.** Whitespace and case folding in `confirm` cover ASCII only.
- Prompt.AskConfirm: an input that ends on a buffer that is neither answer makes the source ask forever. The model reports `Stuck` instead (`Hangs` for a whole run), and `StuckAtEndOfInput` shows that every further round sees the same buffer.
- **Working directory.** The working directory is a parameter. `std::env::current_dir` failing is not modelled.
- Orchestrate.Run: a step that fails carries no filesystem, so the partial state an interrupted copy leaves is stated only for `TreeCopy.CopyTree`.

=== FILE: args.dfy ===
/**
 * The argument rewriting `main` does before parsing: when the first
 * argument is neither a flag nor a subcommand it is taken for a path,
 * and a subcommand is spliced in before it, `restore` for a name that
 * mentions `bak` and `backup` otherwise.
 */
module Args {
  import opened Wrappers
  import opened Text
  import opened Naming

  /** The spellings of the two subcommands and their aliases. */
  predicate IsSubcommand(w: string)
  {
    w == "r" || w == "res" || w == "restore" || w == "b" || w == "bak" || w == "backup"
  }

  /** A first argument the parser can take as it is: a flag or a subcommand. */
  predicate Routed(w: string)
  {
    StartsWith(w, "-") || IsSubcommand(w)
  }

  /** The subcommand chosen for a bare path argument. */
  function InferredCommand(w: string): (c: string)
    ensures IsSubcommand(c)
    ensures c == "restore" <==> Contains(w, "bak")
    ensures !Contains(w, "bak") ==> c == "backup"
  {
    if Contains(w, "bak") then "restore" else "backup"
  }

  /**
   * Splices the inferred subcommand in at index 1 when needed. `None` is
   * the help text and exit that fewer than two arguments lead to.
   */
  method RewriteArgs(a: seq<string>) returns (r: Option<seq<string>>)
    ensures r.None? <==> |a| < 2
    ensures r.Some? ==> |r.value| >= 2 && Routed(r.value[1])
    ensures r.Some? && Routed(a[1]) ==> r.value == a
    ensures r.Some? && !Routed(a[1]) ==>
      && |r.value| == |a| + 1
      && r.value[1] == InferredCommand(a[1])
      && r.value[..1] + r.value[2..] == a
  {
    if |a| < 2 {
      return None;
    }
    var args := a;
    if !Routed(args[1]) {
      var word := InferredCommand(args[1]);
      args := args[..1] + [word] + args[1..];
      assert args[..1] + args[2..] == a;
    }
    r := Some(args);
  }

  // ---------------------------------------------------------------
  // Lemmas

  /** `bakery` is not a subcommand but mentions `bak`, so it is restored. */
  lemma BakeryIsRestored()
    ensures !Routed("bakery") && InferredCommand("bakery") == "restore"
  {
    assert StartsWith("bakery", "bak");
    assert "bakery"[0] == 'b';
    assert "bakery"[2] == 'k' && "backup"[2] == 'c' && "restore"[2] == 's';
  }

  /** A bare name that can only be read as text without `-` in front. */
  predicate Bare(s: string)
  {
    s != [] && s[0] != '-'
  }

  /** Naming a plain backup by itself restores it. */
  lemma PlainBackupNamesRestore(s: string)
    requires Bare(s)
    ensures !Routed(s + FileSuffix) && InferredCommand(s + FileSuffix) == "restore"
    ensures !Routed(s + DirSuffix) && InferredCommand(s + DirSuffix) == "restore"
  {
    var f := s + FileSuffix;
    var d := s + DirSuffix;
    assert f[|s| + 1..|s| + 4] == "bak";
    assert d[|s| + 1..|s| + 4] == "bak";
    ContainsAt(f, "bak", |s| + 1);
    ContainsAt(d, "bak", |s| + 1);
    assert f[0] == s[0] && d[0] == s[0];
    assert |f| > 3 && f[|f| - 4] == '.';
    assert |d| > 5 && d[|d| - 1] == 'd';
  }

  /**
   * Naming a compressed backup by itself backs the archive up again
   * instead of restoring it, unless the name mentions `bak` elsewhere.
   */
  lemma ArchiveNameIsBackedUp(s: string)
    requires Bare(s) && 'b' !in s
    ensures !Routed(s + CompressedSuffix) && InferredCommand(s + CompressedSuffix) == "backup"
  {
    var w := s + CompressedSuffix;
    assert 'b' !in CompressedSuffix;
    assert 'b' !in w;
    assert w[0] == s[0];
    assert |w| > 7;
    MissingFirstChar(w, "bak");
  }

  /** A text without the first character of `sub` does not contain `sub`. */
  lemma {:induction false} MissingFirstChar(s: string, sub: string)
    requires sub != [] && sub[0] !in s
    ensures !Contains(s, sub)
    decreases |s|
  {
    if s != [] {
      MissingFirstChar(s[1..], sub);
    }
  }
}

=== FILE: classify.dfy ===
/**
 * How `restore` decides what an artifact is: a closed decision on the
 * whole displayed path text. The suffix tests have no leading dot.
 */
module Classify {
  import opened Wrappers
  import opened Text
  import opened Paths
  import opened Naming

  datatype ArtifactKind = Archive | PlainFile | PlainDir | Unknown

  /** The order of tests in `restore`: archive endings, then `bak`, then `bak.d`. */
  function Classify(s: string): ArtifactKind
  {
    if EndsWith(s, "tar.zstd") || EndsWith(s, "tar.zst") then Archive
    else if EndsWith(s, "bak") then PlainFile
    else if EndsWith(s, "bak.d") then PlainDir
    else Unknown
  }

  /** The kind a backup of a `kind` source, made with or without compression, should be read as. */
  function ExpectedKind(kind: SourceKind, compress: bool): ArtifactKind
  {
    if compress then Archive
    else match kind
      case RegularFile => PlainFile
      case Directory => PlainDir
  }

  lemma ClassifyCompressedText(t: string)
    ensures Classify(t + CompressedSuffix) == Archive
  {
    var s := t + CompressedSuffix;
    assert s[|s| - 8..] == "tar.zstd";
  }

  lemma ClassifyFileText(t: string)
    ensures Classify(t + FileSuffix) == PlainFile
  {
    var s := t + FileSuffix;
    assert s[|s| - 1] == 'k';
    assert s[|s| - 3..] == "bak";
  }

  lemma ClassifyDirText(t: string)
    ensures Classify(t + DirSuffix) == PlainDir
  {
    var s := t + DirSuffix;
    assert s[|s| - 2] == '.' && s[|s| - 1] == 'd';
    assert s[|s| - 5..] == "bak.d";
  }

  /** Every name the backup naming rule produces is classified as what it was made as. */
  lemma {:induction false} BackupNameClassified(p: Path, kind: SourceKind, compress: bool)
    requires FileName(p).Some?
    ensures Classify(Display(AddExtension(p, BackupSuffix(kind, compress)).value)) == ExpectedKind(kind, compress)
  {
    var suffix := BackupSuffix(kind, compress);
    DisplayAddExtension(p, suffix);
    var t := Display(p);
    if compress {
      ClassifyCompressedText(t);
    } else if kind == RegularFile {
      ClassifyFileText(t);
    } else {
      ClassifyDirText(t);
    }
  }

  /**
   * `foobak` is taken for a plain file backup, but it has no `.bak`, so
   * the `remove_extension` that follows panics.
   */
  lemma UndottedBakPanics()
    ensures Classify(Display(Path(false, [Normal("foobak")]))) == PlainFile
    ensures RemoveExtension(Path(false, [Normal("foobak")]), "bak") == None
  {
    var p := Path(false, [Normal("foobak")]);
    assert Texts(p.comps) == ["foobak"];
    assert Display(p) == "foobak";
    assert !EndsWith("foobak", ".bak") by {
      assert "foobak"[2] == 'o';
    }
  }

  /**
   * `footar.zst` is taken for an archive, but it has no `.tar.zst`, so
   * the target name keeps its full text.
   */
  lemma UndottedArchiveKeepsName()
    ensures Classify("footar.zst") == Archive
    ensures ArchiveStem("footar.zst") == "footar.zst"
  {
    assert EndsWith("footar.zst", "tar.zst");
    assert !EndsWith("footar.zst", ".tar.zst") by {
      assert "footar.zst"[2] == 'o';
    }
  }

  /** Anything classified as a plain-file backup without the dotted suffix panics in `remove_extension`. */
  lemma PlainFileWithoutDotPanics(p: Path)
    requires Classify(Display(p)) == PlainFile && !EndsWith(Display(p), ".bak")
    ensures RemoveExtension(p, "bak") == None
  {
    assert "." + "bak" == ".bak";
  }
}

=== FILE: filesystem.dfy ===
/**
 * The filesystem the tool works on, as a tree: a regular file holds
 * bytes, a directory maps entry names to nodes, and `Other` stands for
 * every other kind of entry (symbolic link, device, socket, pipe).
 * A location is the list of names from the root.
 */
module FileSystem {
  import opened Wrappers

  datatype Node = File(data: seq<bv8>) | Dir(entries: map<string, Node>) | Other

  type Location = seq<string>

  /** The `io::ErrorKind`s the filesystem operations of the model report. */
  datatype IoError = NotFound | AlreadyExists | NotADirectory | IsADirectory | InvalidInput

  function Lookup(n: Node, p: Location): Option<Node>
    decreases |p|
  {
    if p == [] then Some(n)
    else if n.Dir? && p[0] in n.entries then Lookup(n.entries[p[0]], p[1..])
    else None
  }

  predicate IsDirAt(n: Node, p: Location)
  {
    Lookup(n, p).Some? && Lookup(n, p).value.Dir?
  }

  predicate IsFileAt(n: Node, p: Location)
  {
    Lookup(n, p).Some? && Lookup(n, p).value.File?
  }

  /** `p` can be written: it is the root or its parent is a directory. */
  predicate CanPut(n: Node, p: Location)
    decreases |p|
  {
    p == [] || (n.Dir? && if p[0] in n.entries then CanPut(n.entries[p[0]], p[1..]) else |p| == 1)
  }

  /** The tree with `v` at `p`; unchanged when `p` cannot be written. */
  function Put(n: Node, p: Location, v: Node): Node
    decreases |p|
  {
    if p == [] then v
    else match n
      case Dir(e) =>
        if p[0] in e then Dir(e[p[0] := Put(e[p[0]], p[1..], v)])
        else if |p| == 1 then Dir(e[p[0] := v])
        else n
      case _ => n
  }

  /** The tree without the entry at `p` (the root cannot be removed). */
  function Remove(n: Node, p: Location): Node
    decreases |p|
  {
    if p == [] then n
    else match n
      case Dir(e) =>
        if p[0] !in e then n
        else if |p| == 1 then Dir(e - {p[0]})
        else Dir(e[p[0] := Remove(e[p[0]], p[1..])])
      case _ => n
  }

  /** Two locations neither of which lies inside the other. */
  predicate Diverge(p: Location, q: Location)
    decreases |p|
  {
    |p| > 0 && |q| > 0 && (p[0] != q[0] || Diverge(p[1..], q[1..]))
  }

  /**
   * `fs::create_dir_all`: creates every missing directory on the way to
   * `p`. A non-directory in the middle is `NotADirectory`; a
   * non-directory at `p` itself is `AlreadyExists`.
   */
  function CreateDirAll(n: Node, p: Location): Result<Node, IoError>
    decreases |p|
  {
    if p == [] then (if n.Dir? then Ok(n) else Err(AlreadyExists))
    else if !n.Dir? then Err(NotADirectory)
    else
      var child := if p[0] in n.entries then n.entries[p[0]] else Dir(map[]);
      match CreateDirAll(child, p[1..])
      case Err(e) => Err(e)
      case Ok(c) => Ok(Dir(n.entries[p[0] := c]))
  }

  /**
   * The error opening `p` for writing gives when it cannot be written:
   * the first name on the way that is missing (`NotFound`) or is not a
   * directory (`NotADirectory`).
   */
  function CreateError(n: Node, p: Location): (e: IoError)
    requires !CanPut(n, p)
    ensures e == NotFound || e == NotADirectory
    ensures |p| == 1 ==> e == NotADirectory
    decreases |p|
  {
    if !n.Dir? then NotADirectory
    else if p[0] in n.entries then CreateError(n.entries[p[0]], p[1..])
    else NotFound
  }

  /** The `i`-th name on the way to `p` is missing from a directory. */
  predicate MissingAt(n: Node, p: Location, i: int)
  {
    0 < i < |p| && IsDirAt(n, p[..i - 1]) && Lookup(n, p[..i]).None?
  }

  /** The first `i` names of `p` lead to something that is not a directory. */
  predicate BlockedAt(n: Node, p: Location, i: int)
  {
    0 <= i < |p| && Lookup(n, p[..i]).Some? && !Lookup(n, p[..i]).value.Dir?
  }

  /**
   * `fs::copy`: the bytes of the regular file at `from` become the file
   * at `to`. The destination is opened for writing, and so truncated,
   * before the source is read, so a file copied onto itself ends up empty.
   */
  function CopyFile(n: Node, from: Location, to: Location): (r: Result<Node, IoError>)
    ensures r.Ok? ==> IsFileAt(n, from) && !IsDirAt(n, to) && CanPut(n, to)
  {
    match Lookup(n, from)
    case None => Err(NotFound)
    case Some(File(b)) =>
      if IsDirAt(n, to) then Err(IsADirectory)
      else if !CanPut(n, to) then Err(CreateError(n, to))
      else Ok(Put(n, to, File(if to == from then [] else b)))
    case Some(_) => Err(InvalidInput)
  }

  // ---------------------------------------------------------------
  // Lemmas

  lemma {:induction false} LookupAppend(n: Node, p: Location, r: Location)
    ensures Lookup(n, p + r) == if Lookup(n, p).Some? then Lookup(Lookup(n, p).value, r) else None
    decreases |p|
  {
    if p != [] {
      assert (p + r)[1..] == p[1..] + r;
      if n.Dir? && p[0] in n.entries {
        LookupAppend(n.entries[p[0]], p[1..], r);
      }
    } else {
      assert p + r == r;
    }
  }

  /**
   * Opening a location that cannot be written fails with `NotFound`
   * exactly when a name on the way is missing from its directory, and
   * with `NotADirectory` exactly when a name on the way is something
   * other than a directory.
   */
  lemma {:induction false} CreateErrorKinds(n: Node, p: Location)
    requires !CanPut(n, p)
    ensures CreateError(n, p) == NotFound <==> exists i :: MissingAt(n, p, i)
    ensures CreateError(n, p) == NotADirectory <==> exists i :: BlockedAt(n, p, i)
    decreases |p|
  {
    if !n.Dir? {
      assert p[..0] == [];
      assert BlockedAt(n, p, 0);
    } else if p[0] !in n.entries {
      assert p[..0] == [] && p[..1][1..] == [];
      assert MissingAt(n, p, 1);
    } else {
      var child, q := n.entries[p[0]], p[1..];
      CreateErrorKinds(child, q);
      forall j | 0 <= j <= |q| ensures Lookup(n, p[..j + 1]) == Lookup(child, q[..j]) {
        assert p[..j + 1][0] == p[0] && p[..j + 1][1..] == q[..j];
      }
      forall i | MissingAt(n, p, i) ensures MissingAt(child, q, i - 1) {
        assert i != 1 by {
          assert q[..0] == [] && Lookup(n, p[..0 + 1]) == Lookup(child, q[..0]);
        }
      }
      forall j | MissingAt(child, q, j) ensures MissingAt(n, p, j + 1) {
      }
      forall i | BlockedAt(n, p, i) ensures BlockedAt(child, q, i - 1) {
        assert i != 0 by {
          assert p[..0] == [];
        }
      }
      forall j | BlockedAt(child, q, j) ensures BlockedAt(n, p, j + 1) {
      }
    }
  }

  /** Opening a location whose parent exists, but is not a directory, fails with `NotADirectory`. */
  lemma ParentNotADirectory(n: Node, p: Location)
    requires p != [] && Lookup(n, p[..|p| - 1]).Some? && !Lookup(n, p[..|p| - 1]).value.Dir?
    ensures !CanPut(n, p) && CreateError(n, p) == NotADirectory
  {
    var parent := p[..|p| - 1];
    assert p == parent + [p[|p| - 1]];
    CanPutChild(n, parent, p[|p| - 1]);
    assert BlockedAt(n, p, |p| - 1);
    CreateErrorKinds(n, p);
  }

  /** A location can be written exactly when its parent is a directory. */
  lemma {:induction false} CanPutChild(n: Node, p: Location, k: string)
    ensures CanPut(n, p + [k]) <==> IsDirAt(n, p)
    decreases |p|
  {
    if p != [] {
      assert (p + [k])[1..] == p[1..] + [k];
      if n.Dir? && p[0] in n.entries {
        CanPutChild(n.entries[p[0]], p[1..], k);
      }
    }
  }

  /** What was put at `p` is what is found at and below `p`. */
  lemma {:induction false} LookupPut(n: Node, p: Location, v: Node, r: Location)
    requires CanPut(n, p)
    ensures Lookup(Put(n, p, v), p + r) == Lookup(v, r)
    decreases |p|
  {
    if p == [] {
      assert p + r == r;
    } else {
      assert (p + r)[0] == p[0] && (p + r)[1..] == p[1..] + r;
      if p[0] in n.entries {
        LookupPut(n.entries[p[0]], p[1..], v, r);
      } else {
        assert p[1..] + r == r;
      }
    }
  }

  lemma {:induction false} CanPutAfterPut(n: Node, p: Location, v: Node)
    requires CanPut(n, p)
    ensures CanPut(Put(n, p, v), p)
    decreases |p|
  {
    if p != [] && p[0] in n.entries {
      CanPutAfterPut(n.entries[p[0]], p[1..], v);
    }
  }

  /** One level of `Put` through an existing entry. */
  lemma PutThrough(n: Node, k: string, q: Location, v: Node)
    requires n.Dir? && k in n.entries
    ensures Put(n, [k] + q, v) == Dir(n.entries[k := Put(n.entries[k], q, v)])
  {
    assert ([k] + q)[0] == k && ([k] + q)[1..] == q;
  }

  /** One level of `Put` that adds a new entry. */
  lemma PutNew(n: Node, k: string, v: Node)
    requires n.Dir? && k !in n.entries
    ensures Put(n, [k], v) == Dir(n.entries[k := v])
  {
  }

  /** Writing below a freshly written location is writing into what was put there. */
  lemma {:induction false} PutPut(n: Node, p: Location, x: Node, r: Location, v: Node)
    requires CanPut(n, p)
    ensures Put(Put(n, p, x), p + r, v) == Put(n, p, Put(x, r, v))
    decreases |p|
  {
    if p == [] {
      assert p + r == r;
    } else {
      var k, q := p[0], p[1..];
      assert p == [k] + q && p + r == [k] + (q + r);
      if k in n.entries {
        PutPut(n.entries[k], q, x, r, v);
        PutPutEntry(n, k, q, x, r, v);
        PutThrough(n, k, q, Put(x, r, v));
      } else {
        PutPutNew(n, k, x, r, v);
      }
    }
  }

  /** Two writes through an existing entry are two writes inside it. */
  lemma PutPutEntry(n: Node, k: string, q: Location, x: Node, r: Location, v: Node)
    requires n.Dir? && k in n.entries
    ensures Put(Put(n, [k] + q, x), [k] + (q + r), v) ==
      Dir(n.entries[k := Put(Put(n.entries[k], q, x), q + r, v)])
  {
    var e, y := n.entries, Put(n.entries[k], q, x);
    var m := Put(n, [k] + q, x);
    PutThrough(n, k, q, x);
    PutThrough(m, k, q + r, v);
    assert m.entries[k := Put(y, q + r, v)] == e[k := Put(y, q + r, v)];
  }

  /** The step of `PutPut` that adds a new entry. */
  lemma PutPutNew(n: Node, k: string, x: Node, r: Location, v: Node)
    requires n.Dir? && k !in n.entries
    ensures Put(Put(n, [k], x), [k] + r, v) == Put(n, [k], Put(x, r, v))
  {
    var e := n.entries;
    PutNew(n, k, x);
    PutThrough(Dir(e[k := x]), k, r, v);
    PutNew(n, k, Put(x, r, v));
    assert e[k := x][k := Put(x, r, v)] == e[k := Put(x, r, v)];
  }

  /** Putting back what is already there changes nothing. */
  lemma {:induction false} PutExisting(n: Node, p: Location)
    requires Lookup(n, p).Some?
    ensures Put(n, p, Lookup(n, p).value) == n
    decreases |p|
  {
    if p != [] {
      PutExisting(n.entries[p[0]], p[1..]);
    }
  }

  lemma {:induction false} LookupPutElsewhere(n: Node, p: Location, q: Location, v: Node)
    requires Diverge(p, q)
    ensures Lookup(Put(n, p, v), q) == Lookup(n, q)
    decreases |p|
  {
    if n.Dir? && p[0] in n.entries && p[0] == q[0] {
      LookupPutElsewhere(n.entries[p[0]], p[1..], q[1..], v);
    }
  }

  lemma {:induction false} CanPutElsewhere(n: Node, p: Location, q: Location, v: Node)
    requires Diverge(p, q)
    ensures CanPut(Put(n, p, v), q) == CanPut(n, q)
    decreases |p|
  {
    if n.Dir? && p[0] in n.entries && p[0] == q[0] {
      CanPutElsewhere(n.entries[p[0]], p[1..], q[1..], v);
    }
  }

  lemma {:induction false} LookupRemoveElsewhere(n: Node, p: Location, q: Location)
    requires Diverge(p, q)
    ensures Lookup(Remove(n, p), q) == Lookup(n, q)
    decreases |p|
  {
    if n.Dir? && p[0] in n.entries && |p| > 1 && p[0] == q[0] {
      LookupRemoveElsewhere(n.entries[p[0]], p[1..], q[1..]);
    }
  }

  /** After removal nothing is found at the removed location. */
  lemma {:induction false} LookupRemoved(n: Node, p: Location)
    requires p != []
    ensures Lookup(Remove(n, p), p) == None
    decreases |p|
  {
    if n.Dir? && p[0] in n.entries && |p| > 1 {
      LookupRemoved(n.entries[p[0]], p[1..]);
    }
  }

  /** Removing an entry leaves its parent directory in place. */
  lemma {:induction false} RemoveKeepsParent(n: Node, p: Location, k: string)
    requires IsDirAt(n, p)
    ensures IsDirAt(Remove(n, p + [k]), p)
    decreases |p|
  {
    if p == [] {
    } else {
      assert (p + [k])[0] == p[0] && (p + [k])[1..] == p[1..] + [k];
      RemoveKeepsParent(n.entries[p[0]], p[1..], k);
    }
  }

  lemma {:induction false} SiblingsDiverge(b: Location, x: string, y: string)
    requires x != y
    ensures Diverge(b + [x], b + [y])
    decreases |b|
  {
    if b != [] {
      assert (b + [x])[1..] == b[1..] + [x];
      assert (b + [y])[1..] == b[1..] + [y];
      SiblingsDiverge(b[1..], x, y);
    }
  }

  lemma {:induction false} DivergeSymmetric(p: Location, q: Location)
    requires Diverge(p, q)
    ensures Diverge(q, p)
    decreases |p|
  {
    if p[0] == q[0] {
      DivergeSymmetric(p[1..], q[1..]);
    }
  }

  /** Whatever is found can be written back in place. */
  lemma {:induction false} LookupCanPut(n: Node, p: Location)
    requires Lookup(n, p).Some?
    ensures CanPut(n, p)
    decreases |p|
  {
    if p != [] {
      LookupCanPut(n.entries[p[0]], p[1..]);
    }
  }

  /** Writing entry `k` of a directory just written at `p` rewrites that directory. */
  lemma PutChild(n: Node, p: Location, d: map<string, Node>, k: string, v: Node)
    requires CanPut(n, p)
    ensures Lookup(Put(n, p, Dir(d)), p + [k]) == (if k in d then Some(d[k]) else None)
    ensures Put(Put(n, p, Dir(d)), p + [k], v) == Put(n, p, Dir(d[k := v]))
  {
    LookupPut(n, p, Dir(d), [k]);
    PutPut(n, p, Dir(d), [k], v);
    assert Put(Dir(d), [k], v) == Dir(d[k := v]);
  }

  /** `create_dir_all` touches nothing off the path it creates. */
  lemma {:induction false} CreateDirAllElsewhere(n: Node, p: Location, q: Location)
    requires CreateDirAll(n, p).Ok? && Diverge(p, q)
    ensures Lookup(CreateDirAll(n, p).value, q) == Lookup(n, q)
    decreases |p|
  {
    if p[0] == q[0] {
      var child := if p[0] in n.entries then n.entries[p[0]] else Dir(map[]);
      CreateDirAllElsewhere(child, p[1..], q[1..]);
      if p[0] !in n.entries {
        assert Lookup(child, q[1..]).None? by {
          assert q[1..] != [];
        }
      }
    }
  }

  /** `create_dir_all` on an existing directory changes nothing. */
  lemma {:induction false} CreateDirAllExisting(n: Node, p: Location)
    requires IsDirAt(n, p)
    ensures CreateDirAll(n, p) == Ok(n)
    decreases |p|
  {
    if p != [] {
      CreateDirAllExisting(n.entries[p[0]], p[1..]);
      assert n.entries[p[0] := n.entries[p[0]]] == n.entries;
    }
  }

  /** `create_dir_all` of a missing entry in an existing directory creates it empty. */
  lemma {:induction false} CreateDirAllNew(n: Node, p: Location, k: string)
    requires IsDirAt(n, p) && Lookup(n, p + [k]).None?
    ensures CreateDirAll(n, p + [k]) == Ok(Put(n, p + [k], Dir(map[])))
    decreases |p|
  {
    var q := p + [k];
    if p == [] {
      assert q == [k];
    } else {
      assert q[0] == p[0] && q[1..] == p[1..] + [k];
      CreateDirAllNew(n.entries[p[0]], p[1..], k);
    }
  }

  /** `create_dir_all` fails when a non-directory is in the way. */
  lemma {:induction false} CreateDirAllBlocked(n: Node, p: Location, k: string)
    requires IsDirAt(n, p) && Lookup(n, p + [k]).Some? && !Lookup(n, p + [k]).value.Dir?
    ensures CreateDirAll(n, p + [k]).Err?
    decreases |p|
  {
    var q := p + [k];
    if p == [] {
      assert q == [k] && q[1..] == [];
    } else {
      assert q[0] == p[0] && q[1..] == p[1..] + [k];
      CreateDirAllBlocked(n.entries[p[0]], p[1..], k);
    }
  }

  /** On success `create_dir_all` leaves a directory at `p`, with its old entries if it had any. */
  lemma {:induction false} CreateDirAllMakesDir(n: Node, p: Location)
    requires CreateDirAll(n, p).Ok?
    ensures IsDirAt(CreateDirAll(n, p).value, p)
    ensures CanPut(CreateDirAll(n, p).value, p)
    ensures IsDirAt(n, p) ==> Lookup(CreateDirAll(n, p).value, p) == Lookup(n, p)
    decreases |p|
  {
    if p != [] {
      var child := if p[0] in n.entries then n.entries[p[0]] else Dir(map[]);
      CreateDirAllMakesDir(child, p[1..]);
    }
  }
}

=== FILE: naming.dfy ===
/**
 * How backup artifacts are named and how the original name is recovered:
 * `add_extension`, `remove_extension`, `remove_archive_ending` and the
 * suffix `backup_file` / `backup_dir` choose.
 */
module Naming {
  import opened Wrappers
  import opened Text
  import opened Paths

  /** The archive endings `remove_archive_ending` tries, in this order. */
  const ArchiveEndings: seq<string> := [".tar.zstd", ".tar.zst"]

  const CompressedSuffix: string := ".tar.zstd"
  const FileSuffix: string := ".bak"
  const DirSuffix: string := ".bak.d"

  datatype SourceKind = RegularFile | Directory

  /** The suffix a backup of a `kind` source gets. */
  function BackupSuffix(kind: SourceKind, compress: bool): string
  {
    if compress then CompressedSuffix
    else match kind
      case RegularFile => FileSuffix
      case Directory => DirSuffix
  }

  /**
   * `add_extension`: appends `postfix` to the final component. `None` is
   * the panic raised when the path has no file name (`/`, `.`, `..`, `a/..`).
   */
  function AddExtension(p: Path, postfix: string): (r: Option<Path>)
    ensures r.Some? <==> FileName(p).Some?
    ensures r.Some? ==>
      && r.value.rooted == p.rooted
      && |r.value.comps| == |p.comps|
      && r.value.comps[..|p.comps| - 1] == p.comps[..|p.comps| - 1]
      && FileName(r.value) == Some(FileName(p).value + postfix)
  {
    match FileName(p)
    case None => None
    case Some(f) => Some(WithFileName(p, f + postfix))
  }

  /**
   * `remove_extension`: strips one `"." + suffix` from the end of the
   * displayed path and reads the rest back as a path. `None` is the panic
   * raised when the text does not end that way.
   */
  function RemoveExtension(p: Path, suffix: string): (r: Option<Path>)
    ensures r.Some? <==> EndsWith(Display(p), "." + suffix)
  {
    match StripSuffix(Display(p), "." + suffix)
    case None => None
    case Some(short) => Some(Parse(short))
  }

  /** The suffix test of `remove_archive_ending`, one ending at a time. */
  function StripEndings(s: string, endings: seq<string>): (r: string)
    ensures |r| <= |s| && r == s[..|r|]
    decreases |endings|
  {
    if endings == [] then s
    else
      var e := endings[0];
      StripEndings(if EndsWith(s, e) then s[..|s| - |e|] else s, endings[1..])
  }

  /** The text `remove_archive_ending` leaves. */
  function ArchiveStem(s: string): string
  {
    StripEndings(s, ArchiveEndings)
  }

  /**
   * `remove_archive_ending`: truncates the path text once for every
   * ending of `ArchiveEndings` it ends with, in order, and reads the rest
   * back as a path.
   */
  method RemoveArchiveEnding(p: Path) returns (r: Path)
    ensures r == Parse(ArchiveStem(Display(p)))
  {
    var ps := Display(p);
    var i := 0;
    while i < |ArchiveEndings|
      invariant 0 <= i <= |ArchiveEndings|
      invariant StripEndings(ps, ArchiveEndings[i..]) == ArchiveStem(Display(p))
    {
      var ext := ArchiveEndings[i];
      assert ArchiveEndings[i..][1..] == ArchiveEndings[i + 1..];
      if EndsWith(ps, ext) {
        ps := ps[..|ps| - |ext|];
      }
      i := i + 1;
    }
    r := Parse(ps);
  }

  // ---------------------------------------------------------------
  // Lemmas

  /** The added suffix lands at the end of the displayed text. */
  lemma DisplayAddExtension(p: Path, postfix: string)
    requires FileName(p).Some?
    ensures Display(AddExtension(p, postfix).value) == Display(p) + postfix
  {
    DisplayWithFileName(p, postfix);
  }

  /** Stripping `s` undoes appending `"." + s`, for every path with a file name. */
  lemma RemoveAfterAdd(p: Path, s: string)
    requires Valid(p) && FileName(p).Some?
    ensures RemoveExtension(AddExtension(p, "." + s).value, s) == Some(p)
  {
    var q := AddExtension(p, "." + s).value;
    DisplayAddExtension(p, "." + s);
    assert Display(q) == Display(p) + ("." + s);
    assert Display(q)[..|Display(q)| - |"." + s|] == Display(p);
    ParseDisplay(p);
  }

  /** The plain backup names are undone by the `remove_extension` call restore makes. */
  lemma PlainNamesUndone(p: Path)
    requires Valid(p) && FileName(p).Some?
    ensures RemoveExtension(AddExtension(p, FileSuffix).value, "bak") == Some(p)
    ensures RemoveExtension(AddExtension(p, DirSuffix).value, "bak.d") == Some(p)
  {
    assert "." + "bak" == FileSuffix;
    assert "." + "bak.d" == DirSuffix;
    RemoveAfterAdd(p, "bak");
    RemoveAfterAdd(p, "bak.d");
  }

  lemma EndsWithAppend(s: string, t: string)
    ensures EndsWith(s + t, t)
  {
    assert (s + t)[|s + t| - |t|..] == t;
  }

  /** The short ending alone is removed from any text. */
  lemma StemOfShortEnding(s: string)
    ensures ArchiveStem(s + ".tar.zst") == s
  {
    var t := s + ".tar.zst";
    assert !EndsWith(t, ".tar.zstd") by {
      assert t[|t| - 1] == 't';
    }
    EndsWithAppend(s, ".tar.zst");
    assert t[..|t| - 8] == s;
  }

  /**
   * The compressed backup suffix is removed, giving back the original
   * text, unless that text itself ends with the short ending.
   */
  lemma StemOfCompressedName(s: string)
    requires !EndsWith(s, ".tar.zst")
    ensures ArchiveStem(s + CompressedSuffix) == s
  {
    var t := s + CompressedSuffix;
    EndsWithAppend(s, CompressedSuffix);
    assert t[..|t| - 9] == s;
    assert StripEndings(t, ArchiveEndings) == StripEndings(s, [".tar.zst"]);
  }

  /** Both endings chained in that order are both removed. */
  lemma StemOfChainedEndings(s: string)
    ensures ArchiveStem(s + ".tar.zst.tar.zstd") == s
  {
    var t := s + ".tar.zst.tar.zstd";
    assert t == (s + ".tar.zst") + ".tar.zstd";
    EndsWithAppend(s + ".tar.zst", ".tar.zstd");
    assert t[..|t| - 9] == s + ".tar.zst";
    EndsWithAppend(s, ".tar.zst");
    assert (s + ".tar.zst")[..|s + ".tar.zst"| - 8] == s;
  }

  /** A text with neither ending is left as it is. */
  lemma StemWithoutEnding(s: string)
    requires !EndsWith(s, ".tar.zstd") && !EndsWith(s, ".tar.zst")
    ensures ArchiveStem(s) == s
  {
  }

  /**
   * A path whose text ends with `.tar.zst` does not survive a compressed
   * backup and restore by name: the stem loses its own ending too.
   */
  lemma StemOfCompressedArchiveName(s: string)
    ensures ArchiveStem(s + ".tar.zst" + CompressedSuffix) == s
    ensures ArchiveStem(s + ".tar.zst" + CompressedSuffix) != s + ".tar.zst"
  {
    assert s + ".tar.zst" + CompressedSuffix == s + ".tar.zst.tar.zstd";
    StemOfChainedEndings(s);
  }
}

=== FILE: orchestrate.dfy ===
/**
 * What one run of the tool does to the filesystem: `backup_file`,
 * `backup_dir`, `restore`, `recursive_remove` and the dispatch in `main`
 * with its deletion gate. Relative paths are resolved against the
 * working directory `cwd`. Making and reading archives is left to an
 * opaque `Codec`.
 */
module Orchestrate {
  import opened Wrappers
  import opened Text
  import opened Paths
  import opened Naming
  import opened Classify
  import opened FileSystem
  import opened TreeCopy
  import opened Prompt

  /** Failures inside the compression and archive libraries. */
  datatype ArchiveError = EncoderFailed | AppendFailed | DecoderFailed | UnpackFailed

  /**
   * The archive steps, seen from outside: `pack` turns the tree at a
   * location into archive bytes, `unpack` writes the content of archive
   * bytes below an output directory.
   */
  datatype Codec = Codec(
    pack: (Node, Location) -> Result<seq<bv8>, ArchiveError>,
    unpack: (Node, seq<bv8>, Location) -> Result<Node, ArchiveError>)

  /** What `restore` reports as not found before it does anything. */
  datatype Missing = Artifact | OutputDir | OutputNotADirectory

  datatype Error =
    | Absent(missing: Missing)
    | Io(kind: IoError)
    /** `copy_dir_all` failed; which entry failed first depends on the listing order. */
    | CopyFailed
    | ArchiveFailed(archive: ArchiveError)

  /** The panics of the core. */
  datatype Panic =
    | NoFileName
    | NeitherFileNorDir
    | ArchiveNotAFile
    | BakNotAFile
    | BakDIsAFile
    | MissingSuffix
    | StrippedWithoutName
    | UnknownArtifact

  datatype Outcome =
    | Done(fs: Node, created: Path)
    | Failed(error: Error)
    | Panicked(panic: Panic)
    | HelpAndExit
    /** The confirmation question is asked forever. */
    | Hangs

  /** `Path::exists`: the empty path names nothing. */
  predicate Exists(fs: Node, cwd: Location, p: Path)
  {
    !IsEmpty(p) && Lookup(fs, Resolve(cwd, p)).Some?
  }

  // ---------------------------------------------------------------
  // Backup

  /**
   * `make_archive`: creates (or truncates) the archive file, then packs
   * the source into it.
   */
  function MakeArchive(fs: Node, src: Location, archive: Location, codec: Codec): Result<Node, Error>
  {
    if IsDirAt(fs, archive) then Err(Io(IsADirectory))
    else if !CanPut(fs, archive) then Err(Io(CreateError(fs, archive)))
    else
      var created := Put(fs, archive, File([]));
      match codec.pack(created, src)
      case Err(e) => Err(ArchiveFailed(e))
      case Ok(bytes) => Ok(Put(created, archive, File(bytes)))
  }

  /** `backup_file`: an archive or a `.bak` copy next to the file. */
  function BackupFile(fs: Node, cwd: Location, path: Path, compress: bool, codec: Codec): Outcome
  {
    match AddExtension(path, BackupSuffix(RegularFile, compress))
    case None => Panicked(NoFileName)
    case Some(artifact) =>
      var src := Resolve(cwd, path);
      var dst := Resolve(cwd, artifact);
      if compress then
        match MakeArchive(fs, src, dst, codec)
        case Err(e) => Failed(e)
        case Ok(fs1) => Done(fs1, artifact)
      else
        match CopyFile(fs, src, dst)
        case Err(e) => Failed(Io(e))
        case Ok(fs1) => Done(fs1, artifact)
  }

  /** `backup_dir`: an archive or a `.bak.d` copy next to the directory. */
  function BackupDir(fs: Node, cwd: Location, path: Path, compress: bool, codec: Codec): Outcome
  {
    match AddExtension(path, BackupSuffix(Directory, compress))
    case None => Panicked(NoFileName)
    case Some(artifact) =>
      var src := Resolve(cwd, path);
      var dst := Resolve(cwd, artifact);
      if compress then
        match MakeArchive(fs, src, dst, codec)
        case Err(e) => Failed(e)
        case Ok(fs1) => Done(fs1, artifact)
      else
        match CopyDirAllSpec(fs, src, dst)
        case None => Failed(CopyFailed)
        case Some(fs1) => Done(fs1, artifact)
  }

  /** The backup arm of `main`: a missing path prints help and exits. */
  function Backup(fs: Node, cwd: Location, path: Path, compress: bool, codec: Codec): (r: Outcome)
    ensures r == HelpAndExit <==> !Exists(fs, cwd, path)
    ensures Exists(fs, cwd, path) && !IsDirAt(fs, Resolve(cwd, path)) && !IsFileAt(fs, Resolve(cwd, path)) ==>
      r == Panicked(NeitherFileNorDir)
  {
    var src := Resolve(cwd, path);
    if !Exists(fs, cwd, path) then HelpAndExit
    else if IsDirAt(fs, src) then BackupDir(fs, cwd, path, compress, codec)
    else if IsFileAt(fs, src) then BackupFile(fs, cwd, path, compress, codec)
    else Panicked(NeitherFileNorDir)
  }

  // ---------------------------------------------------------------
  // Restore

  /**
   * Where a plain restore writes: the output directory joined with the
   * file name that is left once `"." + suffix` is stripped.
   */
  function PlainTarget(path: Path, out: Path, suffix: string): Result<Path, Panic>
  {
    match RemoveExtension(path, suffix)
    case None => Err(MissingSuffix)
    case Some(stripped) =>
      match FileName(stripped)
      case None => Err(StrippedWithoutName)
      case Some(name) => Ok(Join(out, name))
  }

  function RestoreArchive(fs: Node, cwd: Location, path: Path, out: Path, codec: Codec): Outcome
  {
    var src := Resolve(cwd, path);
    if !IsFileAt(fs, src) then Panicked(ArchiveNotAFile)
    else
      match codec.unpack(fs, Lookup(fs, src).value.data, Resolve(cwd, out))
      case Err(e) => Failed(ArchiveFailed(e))
      case Ok(fs1) => Done(fs1, Push(out, Parse(ArchiveStem(Display(path)))))
  }

  function RestorePlainFile(fs: Node, cwd: Location, path: Path, out: Path): Outcome
  {
    var src := Resolve(cwd, path);
    if !IsFileAt(fs, src) then Panicked(BakNotAFile)
    else
      match PlainTarget(path, out, "bak")
      case Err(p) => Panicked(p)
      case Ok(target) =>
        match CopyFile(fs, src, Resolve(cwd, target))
        case Err(e) => Failed(Io(e))
        case Ok(fs1) => Done(fs1, target)
  }

  function RestorePlainDir(fs: Node, cwd: Location, path: Path, out: Path): Outcome
  {
    var src := Resolve(cwd, path);
    if IsFileAt(fs, src) then Panicked(BakDIsAFile)
    else
      match PlainTarget(path, out, "bak.d")
      case Err(p) => Panicked(p)
      case Ok(target) =>
        match CopyDirAllSpec(fs, src, Resolve(cwd, target))
        case None => Failed(CopyFailed)
        case Some(fs1) => Done(fs1, target)
  }

  /** The artifact exists and the output path is an existing directory. */
  predicate Validated(fs: Node, cwd: Location, path: Path, out: Path)
  {
    Exists(fs, cwd, path) && !IsEmpty(out) && IsDirAt(fs, Resolve(cwd, out))
  }

  /**
   * `restore`: three checks come first, each a not-found error; then
   * the artifact's name decides how it is read back, and the kind on
   * disk must match the name.
   */
  function Restore(fs: Node, cwd: Location, path: Path, out: Path, codec: Codec): (r: Outcome)
    ensures !Exists(fs, cwd, path) ==> r == Failed(Absent(Artifact))
    ensures Exists(fs, cwd, path) && !Exists(fs, cwd, out) ==> r == Failed(Absent(OutputDir))
    ensures Exists(fs, cwd, path) && Exists(fs, cwd, out) && !IsDirAt(fs, Resolve(cwd, out)) ==>
      r == Failed(Absent(OutputNotADirectory))
    ensures r.Failed? && r.error.Absent? <==> !Validated(fs, cwd, path, out)
    ensures Validated(fs, cwd, path, out) ==>
      var kind := Classify.Classify(Display(path));
      var src := Resolve(cwd, path);
      && (kind == Archive && !IsFileAt(fs, src) ==> r == Panicked(ArchiveNotAFile))
      && (kind == PlainFile && !IsFileAt(fs, src) ==> r == Panicked(BakNotAFile))
      && (kind == PlainDir && IsFileAt(fs, src) ==> r == Panicked(BakDIsAFile))
      && (kind == Unknown ==> r == Panicked(UnknownArtifact))
  {
    if !Exists(fs, cwd, path) then Failed(Absent(Artifact))
    else if !Exists(fs, cwd, out) then Failed(Absent(OutputDir))
    else if !IsDirAt(fs, Resolve(cwd, out)) then Failed(Absent(OutputNotADirectory))
    else
      match Classify.Classify(Display(path))
      case Archive => RestoreArchive(fs, cwd, path, out, codec)
      case PlainFile => RestorePlainFile(fs, cwd, path, out)
      case PlainDir => RestorePlainDir(fs, cwd, path, out)
      case Unknown => Panicked(UnknownArtifact)
  }

  // ---------------------------------------------------------------
  // main

  /** `recursive_remove`: directories and files go, anything else is skipped. */
  function RecursiveRemove(fs: Node, loc: Location): (r: Node)
    ensures loc != [] && (IsDirAt(fs, loc) || IsFileAt(fs, loc)) ==> Lookup(r, loc).None?
    ensures !(IsDirAt(fs, loc) || IsFileAt(fs, loc)) ==> r == fs
  {
    if IsDirAt(fs, loc) || IsFileAt(fs, loc) then
      assert loc != [] ==> Lookup(Remove(fs, loc), loc).None? by {
        if loc != [] {
          LookupRemoved(fs, loc);
        }
      }
      Remove(fs, loc)
    else fs
  }

  datatype Command =
    | BackupCmd(path: Path, compress: bool, delete: bool)
    | RestoreCmd(path: Path, delete: bool, outputDir: Option<Path>)

  /** `std::env::current_dir` as a path. */
  function CwdPath(cwd: Location): Path
  {
    Path(true, seq(|cwd|, i requires 0 <= i < |cwd| => Normal(cwd[i])))
  }

  /** `--output-dir`, defaulting to the working directory. */
  function OutputPath(cwd: Location, outputDir: Option<Path>): Path
  {
    if outputDir.Some? then outputDir.value else CwdPath(cwd)
  }

  /** The backup or restore a command asks for, before any deletion. */
  function Perform(cmd: Command, fs: Node, cwd: Location, codec: Codec): Outcome
  {
    match cmd
    case BackupCmd(path, compress, _) => Backup(fs, cwd, path, compress, codec)
    case RestoreCmd(path, _, out) => Restore(fs, cwd, path, OutputPath(cwd, out), codec)
  }

  /** The deletion the user agreed to: `-y`, or a yes to the question. */
  predicate Agreed(yes: bool, answers: seq<string>)
  {
    yes || Confirm(answers) == Answered(true)
  }

  /**
   * The deletion step of `main` after a backup or restore `s`: only a
   * success with `--delete` given removes `loc`, and only when `-y` was
   * given or the question is answered yes. `answers` are the lines on
   * standard input.
   */
  function Gate(s: Outcome, delete: bool, yes: bool, answers: seq<string>, loc: Location): (r: Outcome)
    ensures !s.Done? ==> r == s
    ensures r.Done? ==>
      && s.Done? && r.created == s.created
      && r.fs == (if delete && Agreed(yes, answers) then RecursiveRemove(s.fs, loc) else s.fs)
    ensures r == Hangs <==> s == Hangs || (s.Done? && delete && !yes && Confirm(answers) == Stuck)
    ensures s.Done? && !(delete && !yes && Confirm(answers) == Stuck) ==> r.Done?
    ensures !(delete && Agreed(yes, answers)) && r != Hangs ==> r == s
  {
    match s
    case Done(fs1, created) =>
      if !delete then s
      else if yes then Done(RecursiveRemove(fs1, loc), created)
      else
        (match Confirm(answers)
         case Answered(true) => Done(RecursiveRemove(fs1, loc), created)
         case Answered(false) => s
         case Stuck => Hangs)
    case _ => s
  }

  /** One run of `main` after argument parsing. */
  function Run(cmd: Command, yes: bool, fs: Node, cwd: Location, answers: seq<string>, codec: Codec): Outcome
  {
    Gate(Perform(cmd, fs, cwd, codec), cmd.delete, yes, answers, Resolve(cwd, cmd.path))
  }

  // ---------------------------------------------------------------
  // Lemmas

  /** The directory a file or directory sits in. */
  lemma ParentIsDir(fs: Node, loc: Location)
    requires loc != [] && Lookup(fs, loc).Some?
    ensures IsDirAt(fs, loc[..|loc| - 1])
  {
    var b := loc[..|loc| - 1];
    assert loc == b + [loc[|loc| - 1]];
    LookupCanPut(fs, loc);
    CanPutChild(fs, b, loc[|loc| - 1]);
  }

  /** Writing inside a directory leaves it a directory. */
  lemma PutBelowDir(n: Node, p: Location, k: string, v: Node)
    requires IsDirAt(n, p)
    ensures IsDirAt(Put(n, p + [k], v), p)
  {
    var d := Lookup(n, p).value.entries;
    LookupCanPut(n, p);
    PutExisting(n, p);
    PutChild(n, p, d, k, v);
    LookupPut(n, p, Dir(d[k := v]), []);
    assert p + [] == p;
  }

  /** A successful `copy_dir_all` leaves a directory at its destination. */
  lemma CopyDirAllMakesDir(fs: Node, src: Location, dst: Location)
    requires CopyDirAllSpec(fs, src, dst).Some?
    ensures IsDirAt(CopyDirAllSpec(fs, src, dst).value, dst)
  {
    var fs1 := CreateDirAll(fs, dst).value;
    CreateDirAllMakesDir(fs, dst);
    var m := MergeInto(Lookup(fs1, dst).value.entries, Lookup(fs1, src).value).value;
    LookupPut(fs1, dst, Dir(m), []);
    assert dst + [] == dst;
  }

  /**
   * A backup artifact is written next to its source: the two resolve
   * into the same directory, under the source's name and that name with
   * the suffix added.
   */
  lemma ArtifactBesideSource(cwd: Location, path: Path, suffix: string)
    requires FileName(path).Some? && suffix != ""
    ensures var src := Resolve(cwd, path);
      var dst := Resolve(cwd, AddExtension(path, suffix).value);
      && src != [] && src == src[..|src| - 1] + [FileName(path).value]
      && dst == src[..|src| - 1] + [FileName(path).value + suffix]
      && Diverge(src, dst) && Diverge(dst, src)
  {
    var f := FileName(path).value;
    var src := Resolve(cwd, path);
    ResolveLast(cwd, path);
    var b := src[..|src| - 1];
    assert src == b + [f];
    assert Resolve(cwd, WithFileName(path, f + suffix)) == b + [f + suffix];
    assert f != f + suffix by {
      assert |f + suffix| > |f|;
    }
    SiblingsDiverge(b, f, f + suffix);
    SiblingsDiverge(b, f + suffix, f);
  }

  /** A backup that gets as far as naming its artifact needs a file name. */
  lemma BackupNeedsFileName(fs: Node, cwd: Location, path: Path, compress: bool, codec: Codec)
    requires Exists(fs, cwd, path) && FileName(path).None?
    ensures Backup(fs, cwd, path, compress, codec) in {Panicked(NoFileName), Panicked(NeitherFileNorDir)}
  {
  }

  /** Making an archive next to the source leaves the source alone and fills the archive file. */
  lemma ArchiveWritten(fs: Node, src: Location, dst: Location, codec: Codec)
    requires MakeArchive(fs, src, dst, codec).Ok? && Diverge(dst, src)
    ensures var r := MakeArchive(fs, src, dst, codec).value;
      var packed := codec.pack(Put(fs, dst, File([])), src);
      && Lookup(r, src) == Lookup(fs, src)
      && packed.Ok? && Lookup(r, dst) == Some(File(packed.value))
  {
    var created := Put(fs, dst, File([]));
    var bytes := codec.pack(created, src).value;
    LookupPutElsewhere(fs, dst, src, File([]));
    LookupPutElsewhere(created, dst, src, File(bytes));
    CanPutAfterPut(fs, dst, File([]));
    LookupPut(created, dst, File(bytes), []);
    assert dst + [] == dst;
  }

  /** Copying a file next to itself leaves it alone and duplicates its bytes. */
  lemma FileCopied(fs: Node, src: Location, dst: Location)
    requires CopyFile(fs, src, dst).Ok? && Diverge(dst, src)
    ensures var r := CopyFile(fs, src, dst).value;
      Lookup(r, src) == Lookup(fs, src) && Lookup(r, dst) == Lookup(fs, src)
  {
    var v := Lookup(fs, src).value;
    assert dst != src by {
      DivergeDistinct(dst, src);
    }
    LookupPutElsewhere(fs, dst, src, v);
    LookupPut(fs, dst, v, []);
    assert dst + [] == dst;
  }

  lemma {:induction false} DivergeDistinct(p: Location, q: Location)
    requires Diverge(p, q)
    ensures p != q
    decreases |p|
  {
    if p[0] == q[0] {
      DivergeDistinct(p[1..], q[1..]);
    }
  }

  /**
   * A successful backup names its artifact after the source with the
   * suffix for the source's kind, creates it, and leaves the source as
   * it was.
   */
  lemma BackupKeepsSource(fs: Node, cwd: Location, path: Path, compress: bool, codec: Codec)
    requires Backup(fs, cwd, path, compress, codec).Done?
    ensures var r := Backup(fs, cwd, path, compress, codec);
      var src := Resolve(cwd, path);
      var kind := if IsDirAt(fs, src) then Directory else RegularFile;
      && (IsDirAt(fs, src) || IsFileAt(fs, src))
      && FileName(path).Some?
      && r.created == AddExtension(path, BackupSuffix(kind, compress)).value
      && Lookup(r.fs, src) == Lookup(fs, src)
      && Lookup(r.fs, Resolve(cwd, r.created)).Some?
  {
    var src := Resolve(cwd, path);
    var kind := if IsDirAt(fs, src) then Directory else RegularFile;
    var dst := Resolve(cwd, AddExtension(path, BackupSuffix(kind, compress)).value);
    assert Diverge(dst, src) by {
      ArtifactBesideSource(cwd, path, BackupSuffix(kind, compress));
    }
    if compress {
      ArchiveWritten(fs, src, dst, codec);
    } else if kind == RegularFile {
      FileCopied(fs, src, dst);
    } else {
      CopyDirAllElsewhere(fs, src, dst, src);
      CopyDirAllMakesDir(fs, src, dst);
    }
  }

  /**
   * A compressed backup holds, at the artifact, exactly the bytes the
   * archive step produced from the source after the artifact file was
   * created.
   */
  lemma CompressedBackupHoldsArchive(fs: Node, cwd: Location, path: Path, codec: Codec)
    requires Backup(fs, cwd, path, true, codec).Done?
    ensures var r := Backup(fs, cwd, path, true, codec);
      var dst := Resolve(cwd, r.created);
      var packed := codec.pack(Put(fs, dst, File([])), Resolve(cwd, path));
      packed.Ok? && Lookup(r.fs, dst) == Some(File(packed.value))
  {
    var src := Resolve(cwd, path);
    var kind := if IsDirAt(fs, src) then Directory else RegularFile;
    var dst := Resolve(cwd, AddExtension(path, BackupSuffix(kind, true)).value);
    assert Diverge(dst, src) by {
      ArtifactBesideSource(cwd, path, BackupSuffix(kind, true));
    }
    ArchiveWritten(fs, src, dst, codec);
  }

  /** An uncompressed backup of a file puts a copy of its bytes next to it. */
  lemma PlainFileBackup(fs: Node, cwd: Location, path: Path, codec: Codec)
    requires FileName(path).Some? && IsFileAt(fs, Resolve(cwd, path))
    requires !IsDirAt(fs, Resolve(cwd, AddExtension(path, FileSuffix).value))
    ensures var a := AddExtension(path, FileSuffix).value;
      Backup(fs, cwd, path, false, codec) == Done(Put(fs, Resolve(cwd, a), Lookup(fs, Resolve(cwd, path)).value), a)
  {
    var src := Resolve(cwd, path);
    var a := AddExtension(path, FileSuffix).value;
    var dst := Resolve(cwd, a);
    assert CopyFile(fs, src, dst) == Ok(Put(fs, dst, Lookup(fs, src).value)) by {
      ArtifactBesideSource(cwd, path, FileSuffix);
      ParentIsDir(fs, src);
      CanPutChild(fs, src[..|src| - 1], FileName(path).value + FileSuffix);
      DivergeDistinct(dst, src);
    }
    assert Backup(fs, cwd, path, false, codec) == BackupFile(fs, cwd, path, false, codec);
  }

  /**
   * An uncompressed backup of a directory to a free name puts a copy of
   * the tree next to it, without what is neither a file nor a directory.
   */
  lemma PlainDirBackup(fs: Node, cwd: Location, path: Path, codec: Codec)
    requires FileName(path).Some? && IsDirAt(fs, Resolve(cwd, path))
    requires Lookup(fs, Resolve(cwd, AddExtension(path, DirSuffix).value)).None?
    ensures var a := AddExtension(path, DirSuffix).value;
      Backup(fs, cwd, path, false, codec) == Done(Put(fs, Resolve(cwd, a), Pruned(Lookup(fs, Resolve(cwd, path)).value)), a)
  {
    var src := Resolve(cwd, path);
    var dst := Resolve(cwd, AddExtension(path, DirSuffix).value);
    assert CopyDirAllSpec(fs, src, dst) == Some(Put(fs, dst, Pruned(Lookup(fs, src).value))) by {
      ArtifactBesideSource(cwd, path, DirSuffix);
      ParentIsDir(fs, src);
      assert dst[..|dst| - 1] == src[..|src| - 1];
      CopyDirAllMirrors(fs, src, dst);
    }
    assert Backup(fs, cwd, path, false, codec) == BackupDir(fs, cwd, path, false, codec);
  }

  /** A plain restore writes the stripped name into the output directory. */
  lemma PlainTargetInOutput(cwd: Location, path: Path, out: Path, suffix: string)
    requires PlainTarget(path, out, suffix).Ok?
    ensures var name := FileName(RemoveExtension(path, suffix).value).value;
      && ValidName(name)
      && Resolve(cwd, PlainTarget(path, out, suffix).value) == Resolve(cwd, out) + [name]
  {
    var stripped := RemoveExtension(path, suffix).value;
    var name := FileName(stripped).value;
    assert Valid(stripped);
    assert stripped.comps[|stripped.comps| - 1] == Normal(name);
    ResolveJoin(cwd, out, name);
  }

  /**
   * Restoring a `.bak` file copies its bytes to the stripped name in the
   * output directory (copying a file onto itself leaves it empty).
   */
  lemma RestoredFile(fs: Node, cwd: Location, path: Path, out: Path, codec: Codec)
    requires Restore(fs, cwd, path, out, codec).Done?
    requires Classify.Classify(Display(path)) == PlainFile
    ensures var r := Restore(fs, cwd, path, out, codec);
      var src := Resolve(cwd, path);
      var t := Resolve(cwd, r.created);
      && PlainTarget(path, out, "bak") == Ok(r.created)
      && IsFileAt(fs, src)
      && Lookup(r.fs, t) == Some(File(if t == src then [] else Lookup(fs, src).value.data))
  {
    var r := Restore(fs, cwd, path, out, codec);
    var src := Resolve(cwd, path);
    var t := Resolve(cwd, r.created);
    LookupPut(fs, t, File(if t == src then [] else Lookup(fs, src).value.data), []);
    assert t + [] == t;
  }

  /**
   * Restoring a `.bak.d` directory leaves a directory at the stripped
   * name in the output directory; at a free name that is a copy of the
   * artifact's tree.
   */
  lemma RestoredDir(fs: Node, cwd: Location, path: Path, out: Path, codec: Codec)
    requires Restore(fs, cwd, path, out, codec).Done?
    requires Classify.Classify(Display(path)) == PlainDir
    ensures var r := Restore(fs, cwd, path, out, codec);
      var src := Resolve(cwd, path);
      var t := Resolve(cwd, r.created);
      && PlainTarget(path, out, "bak.d") == Ok(r.created)
      && IsDirAt(r.fs, t)
      && (Lookup(fs, t).None? && IsDirAt(fs, src) && Diverge(src, t) ==>
            Lookup(r.fs, t) == Some(Pruned(Lookup(fs, src).value)))
  {
    var r := Restore(fs, cwd, path, out, codec);
    var src := Resolve(cwd, path);
    assert r == RestorePlainDir(fs, cwd, path, out);
    var target := PlainTarget(path, out, "bak.d").value;
    var t := Resolve(cwd, target);
    assert r == Done(CopyDirAllSpec(fs, src, t).value, target);
    CopyDirAllMakesDir(fs, src, t);
    if Lookup(fs, t).None? && IsDirAt(fs, src) && Diverge(src, t) {
      PlainTargetInOutput(cwd, path, out, "bak.d");
      assert t[..|t| - 1] == Resolve(cwd, out);
      CopyDirAllMirrors(fs, src, t);
    }
  }

  /**
   * Restoring an archive unpacks its bytes into the output directory and
   * reports the output directory joined with the archive's path less its
   * endings.
   */
  lemma RestoredArchive(fs: Node, cwd: Location, path: Path, out: Path, codec: Codec)
    requires Restore(fs, cwd, path, out, codec).Done?
    requires Classify.Classify(Display(path)) == Archive
    ensures var r := Restore(fs, cwd, path, out, codec);
      var src := Resolve(cwd, path);
      && IsFileAt(fs, src)
      && codec.unpack(fs, Lookup(fs, src).value.data, Resolve(cwd, out)) == Ok(r.fs)
      && r.created == Push(out, Parse(ArchiveStem(Display(path))))
  {
  }

  /**
   * The path reported for a restored archive is the path that was backed
   * up, placed under the output directory, unless its name itself ended
   * in `.tar.zst`.
   */
  lemma CompressedRestoreTarget(p: Path, out: Path)
    requires Valid(p) && FileName(p).Some? && !EndsWith(Display(p), ".tar.zst")
    ensures Push(out, Parse(ArchiveStem(Display(AddExtension(p, CompressedSuffix).value)))) == Push(out, p)
  {
    DisplayAddExtension(p, CompressedSuffix);
    StemOfCompressedName(Display(p));
    ParseDisplay(p);
  }

  /** The working directory as a path names the working directory. */
  lemma {:induction false} CwdPathResolves(cwd: Location)
    ensures !IsEmpty(CwdPath(cwd)) && Resolve(cwd, CwdPath(cwd)) == cwd
    decreases |cwd|
  {
    if cwd != [] {
      var n := |cwd| - 1;
      var cs := CwdPath(cwd).comps;
      CwdPathResolves(cwd[..n]);
      assert cs[..n] == CwdPath(cwd[..n]).comps;
      assert cwd == cwd[..n] + [cwd[n]];
    }
  }

  /**
   * With `--delete`, a successful backup removes its source exactly when
   * the user agreed; the artifact stays.
   */
  lemma BackupDeletionGated(cmd: Command, yes: bool, fs: Node, cwd: Location, answers: seq<string>, codec: Codec)
    requires cmd.BackupCmd? && Run(cmd, yes, fs, cwd, answers, codec).Done?
    ensures var r := Run(cmd, yes, fs, cwd, answers, codec);
      && (Lookup(r.fs, Resolve(cwd, cmd.path)).None? <==> cmd.delete && Agreed(yes, answers))
      && Lookup(r.fs, Resolve(cwd, r.created)).Some?
  {
    var s := Perform(cmd, fs, cwd, codec);
    var src := Resolve(cwd, cmd.path);
    BackupKeepsSource(fs, cwd, cmd.path, cmd.compress, codec);
    var kind := if IsDirAt(fs, src) then Directory else RegularFile;
    ArtifactBesideSource(cwd, cmd.path, BackupSuffix(kind, cmd.compress));
    if cmd.delete && Agreed(yes, answers) {
      LookupRemoveElsewhere(s.fs, src, Resolve(cwd, s.created));
    }
  }

  /**
   * Writing `v` under a new name `g` in a directory and then removing the
   * old name `f` there: the old name is gone, the new one holds `v`, the
   * directory stays.
   */
  lemma MovedAside(fs: Node, dir: Location, f: string, g: string, v: Node)
    requires IsDirAt(fs, dir) && f != g
    ensures var fs2 := Remove(Put(fs, dir + [g], v), dir + [f]);
      && Lookup(fs2, dir + [f]).None?
      && Lookup(fs2, dir + [g]) == Some(v)
      && IsDirAt(fs2, dir)
  {
    var fs1 := Put(fs, dir + [g], v);
    LookupRemoved(fs1, dir + [f]);
    CanPutChild(fs, dir, g);
    LookupPut(fs, dir + [g], v, []);
    assert dir + [g] + [] == dir + [g];
    SiblingsDiverge(dir, f, g);
    LookupRemoveElsewhere(fs1, dir + [f], dir + [g]);
    PutBelowDir(fs, dir, g, v);
    RemoveKeepsParent(fs1, dir, f);
  }

  /** `backup --delete` with the deletion agreed to: the artifact is written, then the source removed. */
  lemma BackupThenDelete(fs: Node, cwd: Location, path: Path, yes: bool, answers: seq<string>, codec: Codec, fs1: Node)
    requires Agreed(yes, answers) && FileName(path).Some?
    requires Backup(fs, cwd, path, false, codec).Done? && Backup(fs, cwd, path, false, codec).fs == fs1
    requires IsDirAt(fs1, Resolve(cwd, path)) || IsFileAt(fs1, Resolve(cwd, path))
    ensures Run(BackupCmd(path, false, true), yes, fs, cwd, answers, codec)
      == Done(Remove(fs1, Resolve(cwd, path)), Backup(fs, cwd, path, false, codec).created)
  {
  }

  /** Without `--delete`, a restore run is the restore alone. */
  lemma RunWithoutDelete(path: Path, outputDir: Option<Path>, fs: Node, cwd: Location, codec: Codec)
    ensures Run(RestoreCmd(path, false, outputDir), false, fs, cwd, [], codec)
      == Restore(fs, cwd, path, OutputPath(cwd, outputDir), codec)
  {
  }

  /**
   * Back up a file with `--delete` agreed to, then restore the `.bak`
   * into the source's directory: the file is back with its bytes.
   */
  lemma PlainFileRoundTrip(fs: Node, cwd: Location, path: Path, yes: bool, answers: seq<string>,
                           outputDir: Option<Path>, codec: Codec)
    requires Valid(path) && FileName(path).Some? && IsFileAt(fs, Resolve(cwd, path))
    requires !IsDirAt(fs, Resolve(cwd, AddExtension(path, FileSuffix).value))
    requires Agreed(yes, answers)
    requires var out := OutputPath(cwd, outputDir);
      !IsEmpty(out) && Resolve(cwd, out) + [FileName(path).value] == Resolve(cwd, path)
    ensures var src := Resolve(cwd, path);
      var b := Run(BackupCmd(path, false, true), yes, fs, cwd, answers, codec);
      && b.Done? && Lookup(b.fs, src).None?
      && var r := Run(RestoreCmd(b.created, false, outputDir), false, b.fs, cwd, [], codec);
      && r.Done? && Resolve(cwd, r.created) == src && Lookup(r.fs, src) == Lookup(fs, src)
  {
    var src := Resolve(cwd, path);
    var f := FileName(path).value;
    var a := AddExtension(path, FileSuffix).value;
    var out := OutputPath(cwd, outputDir);
    var dir := Resolve(cwd, out);
    var v := Lookup(fs, src).value;
    var fs1 := Put(fs, dir + [f + FileSuffix], v);
    var fs2 := Remove(fs1, src);
    assert Resolve(cwd, a) == dir + [f + FileSuffix] && f != f + FileSuffix by {
      ArtifactBesideSource(cwd, path, FileSuffix);
    }
    assert IsDirAt(fs, dir) by {
      ParentIsDir(fs, src);
    }
    assert IsFileAt(fs1, src) by {
      PlainFileBackup(fs, cwd, path, codec);
      SiblingsDiverge(dir, f + FileSuffix, f);
      LookupPutElsewhere(fs, dir + [f + FileSuffix], src, v);
    }
    assert Run(BackupCmd(path, false, true), yes, fs, cwd, answers, codec) == Done(fs2, a) by {
      PlainFileBackup(fs, cwd, path, codec);
      BackupThenDelete(fs, cwd, path, yes, answers, codec, fs1);
    }
    MovedAside(fs, dir, f, f + FileSuffix, v);
    assert Classify.Classify(Display(a)) == PlainFile by {
      BackupNameClassified(path, RegularFile, false);
    }
    assert RemoveExtension(a, "bak") == Some(path) by {
      PlainNamesUndone(path);
    }
    RestoreFileToFreeName(fs2, cwd, a, out, codec, f);
    RunWithoutDelete(a, outputDir, fs2, cwd, codec);
    assert Lookup(fs2, Resolve(cwd, a)) == Some(v);
  }

  /**
   * Restoring a `.bak` whose stripped name `f` is free in the output
   * directory puts the artifact's bytes there.
   */
  lemma RestoreFileToFreeName(fs: Node, cwd: Location, a: Path, out: Path, codec: Codec, f: string)
    requires FileName(a).Some? && IsFileAt(fs, Resolve(cwd, a))
    requires Classify.Classify(Display(a)) == PlainFile
    requires RemoveExtension(a, "bak").Some? && FileName(RemoveExtension(a, "bak").value) == Some(f)
    requires !IsEmpty(out) && IsDirAt(fs, Resolve(cwd, out)) && Lookup(fs, Resolve(cwd, out) + [f]).None?
    ensures var t := Resolve(cwd, out) + [f];
      var r := Restore(fs, cwd, a, out, codec);
      r.Done? && Resolve(cwd, r.created) == t && Lookup(r.fs, t) == Lookup(fs, Resolve(cwd, a))
  {
    var t := Resolve(cwd, out) + [f];
    var src := Resolve(cwd, a);
    PlainTargetInOutput(cwd, a, out, "bak");
    CanPutChild(fs, Resolve(cwd, out), f);
    assert t != src;
    var v := Lookup(fs, src).value;
    assert Restore(fs, cwd, a, out, codec) == Done(Put(fs, t, v), Join(out, f));
    LookupPut(fs, t, v, []);
    assert t + [] == t;
  }

  /**
   * Back up a directory to a free `.bak.d` name with `--delete` agreed
   * to, then restore it into the source's directory: the tree is back,
   * less what is neither a file nor a directory.
   */
  lemma PlainDirRoundTrip(fs: Node, cwd: Location, path: Path, yes: bool, answers: seq<string>,
                          outputDir: Option<Path>, codec: Codec)
    requires Valid(path) && FileName(path).Some? && IsDirAt(fs, Resolve(cwd, path))
    requires Lookup(fs, Resolve(cwd, AddExtension(path, DirSuffix).value)).None?
    requires Agreed(yes, answers)
    requires var out := OutputPath(cwd, outputDir);
      !IsEmpty(out) && Resolve(cwd, out) + [FileName(path).value] == Resolve(cwd, path)
    ensures var src := Resolve(cwd, path);
      var b := Run(BackupCmd(path, false, true), yes, fs, cwd, answers, codec);
      && b.Done? && Lookup(b.fs, src).None?
      && var r := Run(RestoreCmd(b.created, false, outputDir), false, b.fs, cwd, [], codec);
      && r.Done? && Resolve(cwd, r.created) == src && Lookup(r.fs, src) == Some(Pruned(Lookup(fs, src).value))
  {
    var src := Resolve(cwd, path);
    var f := FileName(path).value;
    var a := AddExtension(path, DirSuffix).value;
    var out := OutputPath(cwd, outputDir);
    var dir := Resolve(cwd, out);
    var v := Pruned(Lookup(fs, src).value);
    var fs1 := Put(fs, dir + [f + DirSuffix], v);
    var fs2 := Remove(fs1, src);
    assert Resolve(cwd, a) == dir + [f + DirSuffix] && f != f + DirSuffix by {
      ArtifactBesideSource(cwd, path, DirSuffix);
    }
    assert IsDirAt(fs, dir) by {
      ParentIsDir(fs, src);
    }
    assert IsDirAt(fs1, src) by {
      PlainDirBackup(fs, cwd, path, codec);
      SiblingsDiverge(dir, f + DirSuffix, f);
      LookupPutElsewhere(fs, dir + [f + DirSuffix], src, v);
    }
    assert Run(BackupCmd(path, false, true), yes, fs, cwd, answers, codec) == Done(fs2, a) by {
      PlainDirBackup(fs, cwd, path, codec);
      BackupThenDelete(fs, cwd, path, yes, answers, codec, fs1);
    }
    assert Lookup(fs2, src).None? && Lookup(fs2, dir + [f + DirSuffix]) == Some(v) && IsDirAt(fs2, dir) by {
      MovedAside(fs, dir, f, f + DirSuffix, v);
    }
    var r := Restore(fs2, cwd, a, out, codec);
    assert r.Done? && Resolve(cwd, r.created) == src && Lookup(r.fs, src) == Some(Pruned(v)) by {
      assert Classify.Classify(Display(a)) == PlainDir by {
        BackupNameClassified(path, Directory, false);
      }
      assert RemoveExtension(a, "bak.d") == Some(path) by {
        PlainNamesUndone(path);
      }
      SiblingsDiverge(dir, f + DirSuffix, f);
      RestoreDirToFreeName(fs2, cwd, a, out, codec, f);
    }
    RunWithoutDelete(a, outputDir, fs2, cwd, codec);
    PrunedIdempotent(Lookup(fs, src).value);
  }

  /**
   * Restoring a `.bak.d` whose stripped name `f` is free in the output
   * directory puts a copy of the artifact's tree there.
   */
  lemma RestoreDirToFreeName(fs: Node, cwd: Location, a: Path, out: Path, codec: Codec, f: string)
    requires FileName(a).Some? && IsDirAt(fs, Resolve(cwd, a))
    requires Classify.Classify(Display(a)) == PlainDir
    requires RemoveExtension(a, "bak.d").Some? && FileName(RemoveExtension(a, "bak.d").value) == Some(f)
    requires !IsEmpty(out) && IsDirAt(fs, Resolve(cwd, out)) && Lookup(fs, Resolve(cwd, out) + [f]).None?
    requires Diverge(Resolve(cwd, a), Resolve(cwd, out) + [f])
    ensures var t := Resolve(cwd, out) + [f];
      var r := Restore(fs, cwd, a, out, codec);
      r.Done? && Resolve(cwd, r.created) == t && Lookup(r.fs, t) == Some(Pruned(Lookup(fs, Resolve(cwd, a)).value))
  {
    var t := Resolve(cwd, out) + [f];
    var src := Resolve(cwd, a);
    PlainTargetInOutput(cwd, a, out, "bak.d");
    assert t[..|t| - 1] == Resolve(cwd, out);
    CopyDirAllMirrors(fs, src, t);
    assert Restore(fs, cwd, a, out, codec) == Done(CopyDirAllSpec(fs, src, t).value, Join(out, f));
  }
}

=== FILE: paths.dfy ===
/**
 * Unix paths as Rust's `std::path` sees them after component
 * normalisation: an optional root followed by components, where a `.`
 * survives only as the very first component of a relative path and
 * empty components do not exist. `Display` is the text `path.display()`
 * produces for such a path, and `Parse` is `PathBuf::from` on a string.
 */
module Paths {
  import opened Wrappers
  import opened Text

  datatype Component = CurDir | ParentDir | Normal(name: string)

  datatype Path = Path(rooted: bool, comps: seq<Component>)

  /** A name that can be a `Normal` component. */
  predicate ValidName(n: string)
  {
    n != "" && n != "." && n != ".." && '/' !in n
  }

  /** What component normalisation guarantees. */
  predicate Valid(p: Path)
  {
    && (forall i :: 0 <= i < |p.comps| && p.comps[i].Normal? ==> ValidName(p.comps[i].name))
    && (forall i :: 0 <= i < |p.comps| && p.comps[i] == CurDir ==> i == 0 && !p.rooted)
  }

  /** The empty path `""`: it names nothing on disk. */
  predicate IsEmpty(p: Path)
  {
    !p.rooted && p.comps == []
  }

  function CompText(c: Component): string
  {
    match c
    case CurDir => "."
    case ParentDir => ".."
    case Normal(n) => n
  }

  function Texts(cs: seq<Component>): (ts: seq<string>)
    ensures |ts| == |cs|
  {
    seq(|cs|, i requires 0 <= i < |cs| => CompText(cs[i]))
  }

  function Display(p: Path): string
  {
    (if p.rooted then "/" else "") + JoinWith(Texts(p.comps), '/')
  }

  /** The component one piece of split text stands for, if any. */
  function CompOf(t: string, atStart: bool): seq<Component>
  {
    if t == "" then []
    else if t == "." then (if atStart then [CurDir] else [])
    else if t == ".." then [ParentDir]
    else [Normal(t)]
  }

  function ToComps(parts: seq<string>, atStart: bool): (cs: seq<Component>)
    requires forall i :: 0 <= i < |parts| ==> '/' !in parts[i]
    ensures forall i :: 0 <= i < |cs| && cs[i].Normal? ==> ValidName(cs[i].name)
    ensures forall i :: 0 <= i < |cs| && cs[i] == CurDir ==> i == 0 && atStart && parts != [] && parts[0] == "."
    decreases |parts|
  {
    if parts == [] then []
    else CompOf(parts[0], atStart) + ToComps(parts[1..], false)
  }

  /** `PathBuf::from(s)`, seen through its components. */
  function Parse(s: string): (p: Path)
    ensures Valid(p)
  {
    var parts := Split(s, '/');
    assert |s| > 0 && s[0] == '/' ==> parts[0] == "";
    Path(|s| > 0 && s[0] == '/', ToComps(parts, true))
  }

  /** `Path::file_name`: the last component when it is a normal one. */
  function FileName(p: Path): (r: Option<string>)
    ensures r.Some? ==> p.comps != [] && p.comps[|p.comps| - 1] == Normal(r.value)
    ensures r.None? ==> p.comps == [] || !p.comps[|p.comps| - 1].Normal?
  {
    if p.comps != [] && p.comps[|p.comps| - 1].Normal? then Some(p.comps[|p.comps| - 1].name) else None
  }

  /** `Path::with_file_name` on a path that has a file name. */
  function WithFileName(p: Path, name: string): Path
    requires FileName(p).Some?
  {
    Path(p.rooted, p.comps[..|p.comps| - 1] + [Normal(name)])
  }

  /** `PathBuf::push`: an absolute `q` replaces `p`; otherwise `q` is appended. */
  function Push(p: Path, q: Path): Path
  {
    if q.rooted then q
    else if !IsEmpty(p) && q.comps != [] && q.comps[0] == CurDir then Path(p.rooted, p.comps + q.comps[1..])
    else Path(p.rooted, p.comps + q.comps)
  }

  /** `Path::join` with a single name. */
  function Join(p: Path, name: string): Path
  {
    Push(p, Parse(name))
  }

  // ---------------------------------------------------------------
  // Resolution against a working directory, to an absolute list of names.

  function Step(base: seq<string>, c: Component): seq<string>
  {
    match c
    case CurDir => base
    case ParentDir => if base == [] then [] else base[..|base| - 1]
    case Normal(n) => base + [n]
  }

  function Walk(base: seq<string>, cs: seq<Component>): seq<string>
    decreases |cs|
  {
    if cs == [] then base else Step(Walk(base, cs[..|cs| - 1]), cs[|cs| - 1])
  }

  /** The absolute location `p` names when the working directory is `cwd`. */
  function Resolve(cwd: seq<string>, p: Path): seq<string>
  {
    Walk(if p.rooted then [] else cwd, p.comps)
  }

  // ---------------------------------------------------------------
  // Lemmas

  lemma {:induction false} JoinWithSnoc(xs: seq<string>, y: string, sep: char)
    ensures JoinWith(xs + [y], sep) == if xs == [] then y else JoinWith(xs, sep) + [sep] + y
    decreases |xs|
  {
    if |xs| == 1 {
      assert xs + [y] == [xs[0], y];
    } else if |xs| > 1 {
      assert (xs + [y])[1..] == xs[1..] + [y];
      JoinWithSnoc(xs[1..], y, sep);
    }
  }

  lemma JoinWithHead(parts: seq<string>, sep: char)
    requires |parts| >= 1
    ensures |parts[0]| <= |JoinWith(parts, sep)|
    ensures JoinWith(parts, sep)[..|parts[0]|] == parts[0]
  {
    if |parts| > 1 {
      assert JoinWith(parts, sep) == parts[0] + ([sep] + JoinWith(parts[1..], sep));
    }
  }

  lemma {:induction false} ToCompsTexts(cs: seq<Component>, atStart: bool)
    requires forall i :: 0 <= i < |cs| && cs[i].Normal? ==> ValidName(cs[i].name)
    requires forall i :: 0 <= i < |cs| && cs[i] == CurDir ==> i == 0 && atStart
    ensures forall i :: 0 <= i < |Texts(cs)| ==> '/' !in Texts(cs)[i]
    ensures ToComps(Texts(cs), atStart) == cs
    decreases |cs|
  {
    var ts := Texts(cs);
    forall i | 0 <= i < |ts| ensures '/' !in ts[i] {
      assert ts[i] == CompText(cs[i]);
    }
    if cs != [] {
      assert Texts(cs)[1..] == Texts(cs[1..]);
      ToCompsTexts(cs[1..], false);
      assert CompOf(CompText(cs[0]), atStart) == [cs[0]];
      assert cs == [cs[0]] + cs[1..];
    }
  }

  /** Re-reading a displayed path gives the same path back. */
  lemma ParseDisplay(p: Path)
    requires Valid(p)
    ensures Parse(Display(p)) == p
  {
    if p.comps == [] {
      if p.rooted {
        ParseRoot();
      } else {
        assert Display(p) == "";
      }
    } else if p.rooted {
      ParseDisplayRooted(p);
    } else {
      ParseDisplayRelative(p);
    }
  }

  /** `/` alone is the root. */
  lemma ParseRoot()
    ensures Parse("/") == Path(true, [])
  {
    SplitLeadingSep("", '/');
    assert "/" == ['/'] + "";
    assert Split("/", '/') == ["", ""];
    assert ToComps(["", ""], true) == ToComps([""], false) by {
      assert ["", ""][1..] == [""];
    }
    assert ToComps([""], false) == [] by {
      assert [""][1..] == [];
    }
  }

  /** The components of a path are the pieces of its displayed text. */
  lemma SplitDisplayed(cs: seq<Component>)
    requires cs != []
    requires forall i :: 0 <= i < |cs| && cs[i].Normal? ==> ValidName(cs[i].name)
    ensures Split(JoinWith(Texts(cs), '/'), '/') == Texts(cs)
  {
    var ts := Texts(cs);
    forall i | 0 <= i < |ts| ensures '/' !in ts[i] {
      assert ts[i] == CompText(cs[i]);
    }
    SplitJoin(ts, '/');
  }

  lemma ParseDisplayRooted(p: Path)
    requires Valid(p) && p.rooted && p.comps != []
    ensures Parse(Display(p)) == p
  {
    var ts := Texts(p.comps);
    var j := JoinWith(ts, '/');
    SplitDisplayed(p.comps);
    SplitLeadingSep(j, '/');
    assert Display(p) == ['/'] + j;
    assert ToComps([""] + ts, true) == ToComps(ts, false) by {
      assert ([""] + ts)[1..] == ts;
    }
    ToCompsTexts(p.comps, false);
  }

  lemma ParseDisplayRelative(p: Path)
    requires Valid(p) && !p.rooted && p.comps != []
    ensures Parse(Display(p)) == p
  {
    var ts := Texts(p.comps);
    var j := JoinWith(ts, '/');
    SplitDisplayed(p.comps);
    assert Display(p) == j;
    assert j[0] != '/' by {
      JoinWithHead(ts, '/');
      assert ts[0] == CompText(p.comps[0]);
      assert j[0] == ts[0][0];
    }
    ToCompsTexts(p.comps, true);
  }

  /** A valid name parses to a single normal component. */
  lemma ParseName(name: string)
    requires ValidName(name)
    ensures Parse(name) == Path(false, [Normal(name)])
  {
    var p := Path(false, [Normal(name)]);
    assert Texts(p.comps) == [name];
    assert Display(p) == name;
    ParseDisplay(p);
  }

  lemma TextsSnoc(cs: seq<Component>, c: Component)
    ensures Texts(cs + [c]) == Texts(cs) + [CompText(c)]
  {
    assert forall i :: 0 <= i < |cs| ==> (cs + [c])[i] == cs[i];
  }

  /** Renaming the final component to `f + post` appends `post` to the text. */
  lemma DisplayWithFileName(p: Path, post: string)
    requires FileName(p).Some?
    ensures Display(WithFileName(p, FileName(p).value + post)) == Display(p) + post
  {
    var n := |p.comps|;
    var f := FileName(p).value;
    var init := p.comps[..n - 1];
    var q := WithFileName(p, f + post);
    var pre := if p.rooted then "/" else "";
    assert p.comps == init + [Normal(f)];
    TextsSnoc(init, Normal(f));
    TextsSnoc(init, Normal(f + post));
    JoinWithLonger(Texts(init), f, post, '/');
    assert Display(q) == pre + JoinWith(Texts(init) + [f + post], '/');
  }

  /** Lengthening the last part lengthens the joined text at its end. */
  lemma JoinWithLonger(ts: seq<string>, f: string, post: string, sep: char)
    ensures JoinWith(ts + [f + post], sep) == JoinWith(ts + [f], sep) + post
  {
    var a, b := JoinWith(ts + [f], sep), JoinWith(ts + [f + post], sep);
    assert a == if ts == [] then f else JoinWith(ts, sep) + [sep] + f by {
      JoinWithSnoc(ts, f, sep);
    }
    assert b == if ts == [] then f + post else JoinWith(ts, sep) + [sep] + (f + post) by {
      JoinWithSnoc(ts, f + post, sep);
    }
  }

  lemma WithFileNameValid(p: Path, name: string)
    requires Valid(p) && FileName(p).Some? && ValidName(name)
    ensures Valid(WithFileName(p, name))
    ensures FileName(WithFileName(p, name)) == Some(name)
  {
  }

  lemma {:induction false} WalkAppend(b: seq<string>, xs: seq<Component>, ys: seq<Component>)
    ensures Walk(b, xs + ys) == Walk(Walk(b, xs), ys)
    decreases |ys|
  {
    if ys == [] {
      assert xs + ys == xs;
    } else {
      assert (xs + ys)[..|xs + ys| - 1] == xs + ys[..|ys| - 1];
      WalkAppend(b, xs, ys[..|ys| - 1]);
    }
  }

  /** A path with a file name resolves to its parent's location plus that name. */
  lemma ResolveLast(cwd: seq<string>, p: Path)
    requires FileName(p).Some?
    ensures var loc := Resolve(cwd, p);
      loc != [] && loc[|loc| - 1] == FileName(p).value
      && forall name :: Resolve(cwd, WithFileName(p, name)) == loc[..|loc| - 1] + [name]
  {
    var n := |p.comps|;
    forall name ensures Resolve(cwd, WithFileName(p, name)) == Resolve(cwd, p)[..|Resolve(cwd, p)| - 1] + [name] {
      var q := WithFileName(p, name);
      assert q.comps[..n - 1] == p.comps[..n - 1];
    }
  }

  /** Pushing a relative path walks its components from the base's location. */
  lemma ResolvePush(cwd: seq<string>, p: Path, q: Path)
    requires !q.rooted
    ensures Resolve(cwd, Push(p, q)) == Walk(Resolve(cwd, p), q.comps)
  {
    var b := if p.rooted then [] else cwd;
    if !IsEmpty(p) && q.comps != [] && q.comps[0] == CurDir {
      WalkAppend(b, p.comps, q.comps[1..]);
      WalkAppend(Walk(b, p.comps), [CurDir], q.comps[1..]);
      assert [CurDir] + q.comps[1..] == q.comps;
      assert Walk(Walk(b, p.comps), [CurDir]) == Walk(b, p.comps) by {
        assert [CurDir][..0] == [];
      }
    } else {
      WalkAppend(b, p.comps, q.comps);
    }
  }

  /** Joining a name adds exactly that name to the location. */
  lemma ResolveJoin(cwd: seq<string>, p: Path, name: string)
    requires ValidName(name)
    ensures Resolve(cwd, Join(p, name)) == Resolve(cwd, p) + [name]
    ensures Valid(p) ==> Valid(Join(p, name))
  {
    ParseName(name);
    ResolvePush(cwd, p, Parse(name));
    assert [Normal(name)][..0] == [];
  }
}

=== FILE: prompt.dfy ===
/**
 * `confirm`: the yes/no question asked before a deletion. Every round
 * appends the next input line to the buffer, trims and lower-cases the
 * buffer, and decides on it: `y`/`yes` accept, an empty buffer or
 * `n`/`no` decline, anything else asks again without clearing the
 * buffer. At the end of input nothing more is appended.
 */
module Prompt {
  import opened Wrappers
  import opened Text

  datatype Answer =
    | Answered(yes: bool)
    /** The question is asked again forever: the input has ended on an answer that is neither. */
    | Stuck

  /** What one round leaves in the buffer. */
  function Normalize(s: string): string
  {
    Lower(Trim(s))
  }

  /** The decision on a normalised buffer, if it is one. */
  function Decide(b: string): Option<bool>
  {
    if b == "y" || b == "yes" then Some(true)
    else if b == "" || b == "n" || b == "no" then Some(false)
    else None
  }

  /** One round: the next line (nothing at the end of input) appended to the buffer, then normalised. */
  function Round(buf: string, lines: seq<string>): string
  {
    Normalize(buf + if lines == [] then "" else lines[0])
  }

  /** The answer reached with `buf` in the buffer and `lines` still to be read. */
  function ConfirmFrom(buf: string, lines: seq<string>): Answer
    decreases |lines|
  {
    var b := Round(buf, lines);
    match Decide(b)
    case Some(v) => Answered(v)
    case None => if lines == [] then Stuck else ConfirmFrom(b, lines[1..])
  }

  /** The answer to a fresh question, given the lines typed in reply. */
  function Confirm(lines: seq<string>): Answer
  {
    ConfirmFrom("", lines)
  }

  /**
   * The question loop: reads one line per round into the same buffer.
   * Where the source would go on asking at the end of input, the model
   * stops and reports `Stuck`; `StuckAtEndOfInput` shows every further
   * round would see the same buffer.
   */
  method AskConfirm(lines: seq<string>) returns (r: Answer)
    ensures r == Confirm(lines)
  {
    var buf := "";
    var i := 0;
    while true
      invariant 0 <= i <= |lines|
      invariant ConfirmFrom(buf, lines[i..]) == Confirm(lines)
      decreases |lines| - i
    {
      var next := if i < |lines| then lines[i] else "";
      assert Round(buf, lines[i..]) == Normalize(buf + next);
      buf := Normalize(buf + next);
      var d := Decide(buf);
      if d.Some? {
        return Answered(d.value);
      }
      if i == |lines| {
        return Stuck;
      }
      assert lines[i..][1..] == lines[i + 1..];
      i := i + 1;
    }
  }

  // ---------------------------------------------------------------
  // Lemmas

  lemma LowerKeepsSpace(s: string)
    ensures forall i :: 0 <= i < |s| ==> (IsSpace(Lower(s)[i]) <==> IsSpace(s[i]))
  {
  }

  /** A text without space at either end is left alone by trimming. */
  lemma TrimmedAlready(t: string)
    requires t == [] || (!IsSpace(t[0]) && !IsSpace(t[|t| - 1]))
    ensures Trim(t) == t
  {
  }

  lemma TrimEndsClean(s: string)
    ensures var t := Trim(s); t == [] || (!IsSpace(t[0]) && !IsSpace(t[|t| - 1]))
  {
    var a := TrimStart(s);
    var t := TrimEnd(a);
    if t != [] {
      assert t[0] == a[0];
    }
  }

  lemma LowerClean(t: string)
    requires t == [] || (!IsSpace(t[0]) && !IsSpace(t[|t| - 1]))
    ensures var u := Lower(t); u == [] || (!IsSpace(u[0]) && !IsSpace(u[|u| - 1]))
  {
  }

  lemma LowerIdempotent(t: string)
    ensures Lower(Lower(t)) == Lower(t)
  {
    var u := Lower(t);
    forall i | 0 <= i < |u| ensures Lower(u)[i] == u[i] {
      assert u[i] == LowerChar(t[i]);
    }
  }

  /** A buffer once normalised stays as it is when normalised again. */
  lemma NormalizeIdempotent(s: string)
    ensures Normalize(Normalize(s)) == Normalize(s)
  {
    var t := Trim(s);
    TrimEndsClean(s);
    var u := Lower(t);
    LowerClean(t);
    TrimmedAlready(u);
    LowerIdempotent(t);
    assert Normalize(u) == Lower(u);
  }

  /**
   * At the end of input a round changes nothing, so an undecided buffer
   * stays undecided in every later round.
   */
  lemma StuckAtEndOfInput(buf: string)
    requires Decide(Normalize(buf)).None?
    ensures Normalize(Normalize(buf) + "") == Normalize(buf)
  {
    assert Normalize(buf) + "" == Normalize(buf);
    NormalizeIdempotent(buf);
  }

  lemma {:induction false} TrimEndAppend(a: string, b: string)
    requires a != [] && !IsSpace(a[|a| - 1])
    ensures TrimEnd(a + b) == a + TrimEnd(b)
    decreases |b|
  {
    if b == [] {
      assert a + b == a;
    } else if IsSpace(b[|b| - 1]) {
      assert (a + b)[..|a + b| - 1] == a + b[..|b| - 1];
      TrimEndAppend(a, b[..|b| - 1]);
    }
  }

  lemma LowerAppend(a: string, b: string)
    ensures Lower(a + b) == Lower(a) + Lower(b)
  {
  }

  /** Text after a normalised, non-empty buffer never changes the buffer itself. */
  lemma NormalizeKeepsBuffer(buf: string, line: string)
    requires buf != [] && Normalize(buf) == buf
    ensures StartsWith(Normalize(buf + line), buf)
  {
    TrimEndsClean(buf);
    var t := Trim(buf);
    assert |Lower(t)| == |t|;
    assert !IsSpace(buf[0]) && !IsSpace(buf[|buf| - 1]) by {
      LowerKeepsSpace(t);
    }
    assert TrimStart(buf + line) == buf + line;
    TrimEndAppend(buf, line);
    LowerAppend(buf, TrimEnd(line));
    NormalizeIdempotent(t);
    assert Lower(buf) == buf by {
      assert buf == Lower(t);
      TrimmedAlready(Lower(t));
    }
  }

  /** A buffer that can no longer grow into `yes` or `no`. */
  predicate Dead(b: string)
  {
    b != "" && !StartsWith("yes", b) && !StartsWith("no", b)
  }

  /** Text that begins with a dead buffer is dead. */
  lemma DeadGrows(buf: string, b: string)
    requires Dead(buf) && StartsWith(b, buf)
    ensures Dead(b)
  {
  }

  /** A dead buffer is no answer. */
  lemma DeadUndecided(b: string)
    requires Dead(b)
    ensures Decide(b).None?
  {
    assert StartsWith("yes", "y") && StartsWith("yes", "yes");
    assert StartsWith("no", "n") && StartsWith("no", "no");
  }

  /**
   * Once the buffer holds anything that does not begin `yes` or `no`
   * (`maybe`, `yess`, `nope`), no later line can produce an answer:
   * the answers typed accumulate and the old text is never dropped.
   */
  lemma {:induction false} DeadBufferStuck(buf: string, lines: seq<string>)
    requires Dead(buf) && Normalize(buf) == buf
    ensures ConfirmFrom(buf, lines) == Stuck
    decreases |lines|
  {
    var next := if lines == [] then "" else lines[0];
    var b := Round(buf, lines);
    NormalizeKeepsBuffer(buf, next);
    NormalizeIdempotent(buf + next);
    DeadGrows(buf, b);
    DeadUndecided(b);
    if lines != [] {
      DeadBufferStuck(b, lines[1..]);
    }
  }

  /** With no input at all the question is declined. */
  lemma EndOfInputDeclines()
    ensures Confirm([]) == Answered(false)
  {
    assert Trim("") == "";
    assert Normalize("" + "") == "";
  }

  /** `ye` followed by `s` is read as `yes`, because the buffer is kept. */
  lemma AnswersAccumulate(lines: seq<string>)
    requires lines == ["ye\n", "s\n"]
    ensures Confirm(lines) == Answered(true)
  {
    RoundYe(lines);
    var b := Round("", lines);
    assert Decide(b).None?;
    assert Confirm(lines) == ConfirmFrom(b, lines[1..]);
    RoundYes(lines[1..]);
    assert Decide(Round(b, lines[1..])) == Some(true);
  }

  lemma RoundYe(lines: seq<string>)
    requires lines != [] && lines[0] == "ye\n"
    ensures Round("", lines) == "ye"
  {
    assert "" + lines[0] == "ye" + "\n";
    NormalizeWord("ye");
  }

  lemma RoundYes(lines: seq<string>)
    requires lines != [] && lines[0] == "s\n"
    ensures Round("ye", lines) == "yes"
  {
    assert "ye" + lines[0] == "yes" + "\n";
    NormalizeWord("yes");
  }

  /** A lower-case word typed and ended with a newline normalises to the word. */
  lemma NormalizeWord(w: string)
    requires w != [] && forall i :: 0 <= i < |w| ==> 'a' <= w[i] <= 'z'
    ensures Normalize(w + "\n") == w
  {
    var s := w + "\n";
    assert TrimStart(s) == s by {
      assert s[0] == w[0];
    }
    assert TrimEnd(s) == w by {
      assert s[..|s| - 1] == w;
    }
    assert Lower(w) == w;
  }

  lemma FirstRound(l: string, rest: seq<string>)
    ensures Round("", [l] + rest) == Normalize(l)
  {
    assert ([l] + rest)[0] == l;
    assert "" + l == l;
  }

  /** An undecided first line leaves its normalised text in the buffer for the next round. */
  lemma UndecidedFirstLine(l: string, rest: seq<string>)
    requires Decide(Normalize(l)).None?
    ensures Confirm([l] + rest) == ConfirmFrom(Normalize(l), rest)
  {
    FirstRound(l, rest);
    assert ([l] + rest)[1..] == rest;
  }

  /** A first answer that is dead, whatever follows, leaves the question asked forever. */
  lemma FirstAnswerWrong(first: string, later: seq<string>)
    requires Dead(Normalize(first))
    ensures Confirm([first] + later) == Stuck
  {
    var b := Normalize(first);
    NormalizeIdempotent(first);
    DeadUndecided(b);
    DeadBufferStuck(b, later);
    UndecidedFirstLine(first, later);
  }

  /** A wrong first answer can never be corrected: `maybe` then `yes` asks forever. */
  lemma WrongAnswerSticks()
    ensures Confirm(["maybe\n", "yes\n"]) == Stuck
  {
    var first, later := "maybe\n", ["yes\n"];
    assert Dead(Normalize(first)) by {
      assert first == "maybe" + "\n";
      NormalizeWord("maybe");
    }
    FirstAnswerWrong(first, later);
    assert [first] + later == ["maybe\n", "yes\n"];
  }
}

=== FILE: text.dfy ===
/** Option and Result, the two failure-carrying wrappers every other module uses. */
module Wrappers {

  datatype Option<+T> = None | Some(value: T)

  datatype Result<+T, +E> = Ok(value: T) | Err(error: E)
}

/**
 * The string operations the tool applies to path text and to typed answers:
 * suffix tests and stripping, substring search, splitting on a separator,
 * and the ASCII part of trimming and lower-casing.
 */
module Text {
  import opened Wrappers

  predicate StartsWith(s: string, prefix: string)
  {
    |prefix| <= |s| && s[..|prefix|] == prefix
  }

  predicate EndsWith(s: string, suffix: string)
  {
    |suffix| <= |s| && s[|s| - |suffix|..] == suffix
  }

  /** `str::strip_suffix`: the text before `suffix`, when `s` ends with it. */
  function StripSuffix(s: string, suffix: string): (r: Option<string>)
    ensures r.Some? <==> EndsWith(s, suffix)
    ensures r.Some? ==> r.value + suffix == s
  {
    if EndsWith(s, suffix) then Some(s[..|s| - |suffix|]) else None
  }

  /** `str::contains`: `sub` occurs somewhere in `s`. */
  predicate Contains(s: string, sub: string)
    decreases |s|
  {
    StartsWith(s, sub) || (s != [] && Contains(s[1..], sub))
  }

  lemma {:induction false} ContainsAt(s: string, sub: string, i: nat)
    requires i + |sub| <= |s| && s[i..i + |sub|] == sub
    ensures Contains(s, sub)
    decreases i
  {
    if i == 0 {
      assert s[..|sub|] == sub;
    } else {
      assert s[1..][i - 1..i - 1 + |sub|] == s[i..i + |sub|];
      ContainsAt(s[1..], sub, i - 1);
    }
  }

  /** `sub` occurs in `s` starting at index `i`. */
  predicate OccursAt(s: string, sub: string, i: nat)
  {
    i + |sub| <= |s| && s[i..i + |sub|] == sub
  }

  /** `sub` occurs in `s` exactly when it occurs at some index of `s`. */
  lemma {:induction false} ContainsIff(s: string, sub: string)
    ensures Contains(s, sub) <==> exists i: nat :: OccursAt(s, sub, i)
    decreases |s|
  {
    if exists i: nat :: OccursAt(s, sub, i) {
      var i: nat :| OccursAt(s, sub, i);
      ContainsAt(s, sub, i);
    }
    if Contains(s, sub) {
      if StartsWith(s, sub) {
        assert OccursAt(s, sub, 0);
      } else {
        ContainsIff(s[1..], sub);
        var j: nat :| OccursAt(s[1..], sub, j);
        assert s[j + 1..j + 1 + |sub|] == s[1..][j..j + |sub|];
        assert OccursAt(s, sub, j + 1);
      }
    }
  }

  /** Splits `s` at every `sep`; there is always at least one part. */
  function Split(s: string, sep: char): (parts: seq<string>)
    ensures |parts| >= 1
    ensures forall i :: 0 <= i < |parts| ==> sep !in parts[i]
    decreases |s|
  {
    if s == [] then [""]
    else
      var rest := Split(s[1..], sep);
      if s[0] == sep then [""] + rest else [[s[0]] + rest[0]] + rest[1..]
  }

  /** The parts glued back together with `sep` between neighbours. */
  function JoinWith(parts: seq<string>, sep: char): string
    decreases |parts|
  {
    if parts == [] then ""
    else if |parts| == 1 then parts[0]
    else parts[0] + [sep] + JoinWith(parts[1..], sep)
  }

  lemma {:induction false} SplitPrefix(a: string, t: string, sep: char)
    requires sep !in a
    ensures Split(a + t, sep) == [a + Split(t, sep)[0]] + Split(t, sep)[1..]
    decreases |a|
  {
    if a != [] {
      assert (a + t)[1..] == a[1..] + t;
      SplitPrefix(a[1..], t, sep);
      assert [a[0]] + (a[1..] + Split(t, sep)[0]) == a + Split(t, sep)[0];
    } else {
      var parts := Split(t, sep);
      assert a + t == t && a + parts[0] == parts[0];
      assert [parts[0]] + parts[1..] == parts;
    }
  }

  /** Splitting undoes joining when no part holds the separator. */
  lemma {:induction false} SplitJoin(parts: seq<string>, sep: char)
    requires |parts| >= 1
    requires forall i :: 0 <= i < |parts| ==> sep !in parts[i]
    ensures Split(JoinWith(parts, sep), sep) == parts
    decreases |parts|
  {
    if |parts| == 1 {
      SplitPrefix(parts[0], "", sep);
      assert parts[0] + "" == parts[0];
    } else {
      var rest := JoinWith(parts[1..], sep);
      SplitJoin(parts[1..], sep);
      assert JoinWith(parts, sep) == parts[0] + ([sep] + rest);
      SplitPrefix(parts[0], [sep] + rest, sep);
      assert ([sep] + rest)[1..] == rest;
      assert parts[0] + "" == parts[0];
      assert parts == [parts[0]] + parts[1..];
    }
  }

  lemma {:induction false} SplitLeadingSep(t: string, sep: char)
    ensures Split([sep] + t, sep) == [""] + Split(t, sep)
  {
    assert ([sep] + t)[1..] == t;
  }

  // ---------------------------------------------------------------
  // ASCII trimming and lower-casing (what `trim` and `to_lowercase`
  // do to the ASCII range).

  /** The ASCII characters Rust's `char::is_whitespace` accepts. */
  predicate IsSpace(c: char)
  {
    c == ' ' || c == '\t' || c == '\n' || c == '\r' || c == '\U{000B}' || c == '\U{000C}'
  }

  /** `s` without its leading whitespace. */
  function TrimStart(s: string): (r: string)
    ensures r == [] || !IsSpace(r[0])
    ensures |r| <= |s| && r == s[|s| - |r|..]
    ensures forall i :: 0 <= i < |s| - |r| ==> IsSpace(s[i])
    decreases |s|
  {
    if s != [] && IsSpace(s[0]) then TrimStart(s[1..]) else s
  }

  /** `s` without its trailing whitespace. */
  function TrimEnd(s: string): (r: string)
    ensures r == [] || !IsSpace(r[|r| - 1])
    ensures |r| <= |s| && r == s[..|r|]
    ensures forall i :: |r| <= i < |s| ==> IsSpace(s[i])
    decreases |s|
  {
    if s != [] && IsSpace(s[|s| - 1]) then TrimEnd(s[..|s| - 1]) else s
  }

  function Trim(s: string): string
  {
    TrimEnd(TrimStart(s))
  }

  /** ASCII lower-casing: an upper-case letter becomes the lower-case letter at the same place in the alphabet. */
  function LowerChar(c: char): (d: char)
    ensures 'A' <= c <= 'Z' ==> 'a' <= d <= 'z' && d as int - 'a' as int == c as int - 'A' as int
    ensures !('A' <= c <= 'Z') ==> d == c
  {
    if 'A' <= c <= 'Z' then (c as int - 'A' as int + 'a' as int) as char else c
  }

  function Lower(s: string): (r: string)
    ensures |r| == |s|
    ensures forall i :: 0 <= i < |s| ==> r[i] == LowerChar(s[i])
  {
    seq(|s|, i requires 0 <= i < |s| => LowerChar(s[i]))
  }
}

=== FILE: treecopy.dfy ===
/**
 * `copy_dir_all`: the recursive copy of a directory tree. Directories are
 * created with `create_dir_all` and descended into, regular files are
 * copied byte for byte, every other kind of entry is skipped, and the
 * first failure ends the copy with whatever was already written left in
 * place.
 *
 * The specification works entry by entry: copying a source node onto the
 * destination entry that already exists (or not) gives a new entry, or
 * fails. Entries with different names never interfere, so the order in
 * which the directory is listed decides only which error is reported.
 */
module TreeCopy {
  import opened Wrappers
  import opened FileSystem

  /** The tree as a copy can reproduce it: every `Other` entry dropped. */
  function Pruned(n: Node): (r: Node)
    ensures r.Dir? == n.Dir? && r.File? == n.File?
    ensures n.File? ==> r == n
    ensures r.Dir? ==> forall k :: k in r.entries ==> k in n.entries.Keys && !n.entries[k].Other?
    decreases n
  {
    match n
    case Dir(e) => Dir(map k | k in e && !e[k].Other? :: Pruned(e[k]))
    case _ => n
  }

  function Get(m: map<string, Node>, k: string): Option<Node>
  {
    if k in m then Some(m[k]) else None
  }

  /** The entries of `src` among `done` that a copy acts on. */
  function Copied(src: Node, done: set<string>): set<string>
    requires src.Dir?
  {
    set k | k in done && k in src.entries && !src.entries[k].Other?
  }

  /**
   * The entry copying `s` produces where `existing` was: a file replaces
   * anything but a directory; a directory is merged into an existing
   * directory or created; `None` when a step fails.
   */
  function CopiedNode(existing: Option<Node>, s: Node): (r: Option<Node>)
    requires !s.Other?
    ensures s.File? ==> (r.Some? <==> !(existing.Some? && existing.value.Dir?))
    ensures s.File? && r.Some? ==> r.value == s
    ensures s.Dir? && existing.Some? && !existing.value.Dir? ==> r.None?
    ensures r.Some? ==> r.value.Dir? == s.Dir?
    decreases s, 4
  {
    match s
    case File(_) => if existing.Some? && existing.value.Dir? then None else Some(s)
    case Dir(_) =>
      match existing
      case None => MergeOrFail(map[], s)
      case Some(Dir(d)) => MergeOrFail(d, s)
      case Some(_) => None
  }

  function MergeOrFail(into: map<string, Node>, src: Node): Option<Node>
    requires src.Dir?
    decreases src, 3
  {
    match MergeInto(into, src)
    case None => None
    case Some(m) => Some(Dir(m))
  }

  /** Every entry of `done` that is copied at all is copied without failure. */
  predicate CopiesSucceed(into: map<string, Node>, src: Node, done: set<string>)
    requires src.Dir?
    decreases src, 0
  {
    forall k :: k in done && k in src.entries && !src.entries[k].Other? ==> CopiedNode(Get(into, k), src.entries[k]).Some?
  }

  /** The destination entries once the entries `done` of `src` have been copied into `into`. */
  function Overlay(into: map<string, Node>, src: Node, done: set<string>): map<string, Node>
    requires src.Dir? && CopiesSucceed(into, src, done)
    decreases src, 1
  {
    map k | k in into.Keys + Copied(src, done) ::
      if k in Copied(src, done) then CopiedNode(Get(into, k), src.entries[k]).value else into[k]
  }

  /**
   * The entries of a destination directory holding `into` after the
   * entries of `src` were copied into it; `None` when some copy fails.
   * Entries the source lacks stay as they were.
   */
  function MergeInto(into: map<string, Node>, src: Node): (r: Option<map<string, Node>>)
    requires src.Dir?
    ensures r.Some? ==> r.value.Keys == into.Keys + Copied(src, src.entries.Keys)
    ensures r.Some? ==> forall k :: k in into && k !in Copied(src, src.entries.Keys) ==> r.value[k] == into[k]
    decreases src, 2
  {
    if CopiesSucceed(into, src, src.entries.Keys) then Some(Overlay(into, src, src.entries.Keys)) else None
  }

  /**
   * The entries `got` a copy leaves when it stops at the entry `k` of
   * `src`: the entries `done` were copied, the copy of `k` fails, the
   * entry `k` itself may hold a partial copy, and every other entry is
   * as the overlay of `done` leaves it, so nothing is rolled back and no
   * later entry was copied.
   */
  predicate PartialCopy(into: map<string, Node>, src: Node, done: set<string>, k: string, got: map<string, Node>)
    requires src.Dir?
  {
    && done <= src.entries.Keys && k in src.entries && k !in done && !src.entries[k].Other?
    && CopiesSucceed(into, src, done)
    && CopiedNode(Get(into, k), src.entries[k]).None?
    && got - {k} == Overlay(into, src, done) - {k}
  }

  /**
   * `copy_dir_all(src, dst)` as a whole: `create_dir_all(dst)`, then a
   * listing of `src` taken at that point, copied into `dst`.
   */
  function CopyDirAllSpec(fs: Node, src: Location, dst: Location): Option<Node>
  {
    match CreateDirAll(fs, dst)
    case Err(_) => None
    case Ok(fs1) =>
      var listing := Lookup(fs1, src);
      var target := Lookup(fs1, dst);
      if listing.Some? && listing.value.Dir? && target.Some? && target.value.Dir? then
        match MergeInto(target.value.entries, listing.value)
        case None => None
        case Some(m) => Some(Put(fs1, dst, Dir(m)))
      else None
  }

  // ---------------------------------------------------------------
  // The copy itself

  /**
   * Copies the entries of the directory `src` (as listed when the copy
   * started) into the directory at `dst`, one entry at a time, stopping
   * at the first failure.
   */
  method CopyTree(fs: Node, src: Node, dst: Location) returns (fs': Node, err: Option<IoError>)
    requires src.Dir? && IsDirAt(fs, dst)
    ensures err.None? <==> MergeInto(Lookup(fs, dst).value.entries, src).Some?
    ensures err.None? ==> fs' == Put(fs, dst, Dir(MergeInto(Lookup(fs, dst).value.entries, src).value))
    ensures IsDirAt(fs', dst) && fs' == Put(fs, dst, Lookup(fs', dst).value)
    ensures err.Some? ==> exists done, k :: PartialCopy(Lookup(fs, dst).value.entries, src, done, k, Lookup(fs', dst).value.entries)
    decreases src, 1
  {
    var into := Lookup(fs, dst).value.entries;
    LookupCanPut(fs, dst);
    PutExisting(fs, dst);
    OverlayNothing(into, src);
    fs' := fs;
    var todo := src.entries.Keys;
    var done: set<string> := {};
    while todo != {}
      invariant todo + done == src.entries.Keys && todo !! done
      invariant CopiesSucceed(into, src, done)
      invariant fs' == Put(fs, dst, Dir(Overlay(into, src, done)))
      decreases |todo|
    {
      var k :| k in todo;
      var o := Overlay(into, src, done);
      var child := src.entries[k];
      if !child.Other? {
        assert Get(o, k) == Get(into, k);
        var next, e := CopyEntry(fs, dst, o, k, child);
        if e.Some? {
          MergeFails(into, src, k);
          assert PartialCopy(into, src, done, k, Lookup(next, dst).value.entries);
          return next, e;
        }
        fs' := next;
      }
      OverlayStep(into, src, done, k);
      assert (todo - {k}) + (done + {k}) == todo + done;
      todo := todo - {k};
      done := done + {k};
    }
    err := None;
    var m := Overlay(into, src, done);
    assert MergeInto(into, src) == Some(m) by {
      OverlayEverything(into, src, done);
    }
    assert Lookup(fs', dst) == Some(Dir(m)) by {
      LookupPut(fs, dst, Dir(m), []);
      assert dst + [] == dst;
    }
  }

  /**
   * Copies the source entry `child` to the entry `k` of the directory
   * at `dst`, which holds `o`. A file is copied unless a directory is
   * in the way.
   */
  method CopyEntry(fs: Node, dst: Location, o: map<string, Node>, k: string, child: Node) returns (fs': Node, err: Option<IoError>)
    requires CanPut(fs, dst) && !child.Other?
    ensures err.None? <==> CopiedNode(Get(o, k), child).Some?
    ensures err.None? ==> fs' == Put(fs, dst, Dir(o[k := CopiedNode(Get(o, k), child).value]))
    ensures IsDirAt(fs', dst) && fs' == Put(fs, dst, Lookup(fs', dst).value)
    ensures err.Some? ==> Lookup(fs', dst).value.entries - {k} == o - {k}
    decreases child, 3
  {
    if child.Dir? {
      fs', err := CopyDirEntry(fs, dst, o, k, child);
      return;
    }
    var cur := Put(fs, dst, Dir(o));
    PutChild(fs, dst, o, k, child);
    if IsDirAt(cur, dst + [k]) {
      PutChild(fs, dst, o, k, o[k]);
      assert o[k := o[k]] == o;
      ChildFrame(fs, dst, o, k, o[k]);
      return cur, Some(IsADirectory);
    }
    fs', err := Put(cur, dst + [k], child), None;
    ChildFrame(fs, dst, o, k, child);
  }

  /**
   * Copies the source directory `child` to the entry `k` of the
   * directory at `dst`: `create_dir_all` on the entry, then a copy of
   * the listing into it.
   */
  method CopyDirEntry(fs: Node, dst: Location, o: map<string, Node>, k: string, child: Node) returns (fs': Node, err: Option<IoError>)
    requires CanPut(fs, dst) && child.Dir?
    ensures err.None? <==> CopiedNode(Get(o, k), child).Some?
    ensures err.None? ==> fs' == Put(fs, dst, Dir(o[k := CopiedNode(Get(o, k), child).value]))
    ensures IsDirAt(fs', dst) && fs' == Put(fs, dst, Lookup(fs', dst).value)
    ensures err.Some? ==> Lookup(fs', dst).value.entries - {k} == o - {k}
    decreases child, 2
  {
    var cur := Put(fs, dst, Dir(o));
    var made := CreateDirAll(cur, dst + [k]);
    if made.Err? {
      CreateDirAllKeepsDir(fs, dst, o, k);
      PutChild(fs, dst, o, k, o[k]);
      assert o[k := o[k]] == o;
      ChildFrame(fs, dst, o, k, o[k]);
      return cur, Some(made.error);
    }
    var d := CreateDirAllChild(fs, dst, o, k);
    fs', err := CopyTree(made.value, child, dst + [k]);
    ChildFrame(fs, dst, o[k := Dir(d)], k, Lookup(fs', dst + [k]).value);
    if err.None? {
      ChildMerged(fs, dst, o, k, d, child);
    } else {
      UpdatedOnlyAt(o, k, Dir(d), Lookup(fs', dst + [k]).value);
    }
  }

  /** `copy_dir_all`: create the destination, list the source, copy the listing. */
  method CopyDirAll(fs: Node, src: Location, dst: Location) returns (fs': Node, err: Option<IoError>)
    ensures err.None? <==> CopyDirAllSpec(fs, src, dst).Some?
    ensures err.None? ==> fs' == CopyDirAllSpec(fs, src, dst).value
  {
    var made := CreateDirAll(fs, dst);
    if made.Err? {
      return fs, Some(made.error);
    }
    var fs1 := made.value;
    CreateDirAllMakesDir(fs, dst);
    var listing := Lookup(fs1, src);
    if listing.None? {
      return fs1, Some(NotFound);
    }
    if !listing.value.Dir? {
      return fs1, Some(NotADirectory);
    }
    fs', err := CopyTree(fs1, listing.value, dst);
  }

  // ---------------------------------------------------------------
  // Lemmas the copy needs

  /** Copying one more entry successfully extends the overlay by that entry. */
  lemma OverlayStep(into: map<string, Node>, src: Node, done: set<string>, k: string)
    requires src.Dir? && CopiesSucceed(into, src, done) && k in src.entries && k !in done
    requires !src.entries[k].Other? ==> CopiedNode(Get(into, k), src.entries[k]).Some?
    ensures CopiesSucceed(into, src, done + {k})
    ensures Overlay(into, src, done + {k}) ==
      if src.entries[k].Other? then Overlay(into, src, done)
      else Overlay(into, src, done)[k := CopiedNode(Get(into, k), src.entries[k]).value]
  {
    assert Copied(src, done + {k}) == Copied(src, done) + (if src.entries[k].Other? then {} else {k});
  }

  lemma OverlayNothing(into: map<string, Node>, src: Node)
    requires src.Dir?
    ensures CopiesSucceed(into, src, {}) && Overlay(into, src, {}) == into
  {
  }

  lemma OverlayEverything(into: map<string, Node>, src: Node, done: set<string>)
    requires src.Dir? && done == src.entries.Keys && CopiesSucceed(into, src, done)
    ensures MergeInto(into, src) == Some(Overlay(into, src, done))
  {
  }

  /** Writing entry `k` below `dst` leaves a directory at `dst` and changes nothing else. */
  lemma ChildFrame(fs: Node, dst: Location, o: map<string, Node>, k: string, v: Node)
    requires CanPut(fs, dst)
    ensures var r := Put(Put(fs, dst, Dir(o)), dst + [k], v);
      Lookup(r, dst) == Some(Dir(o[k := v])) && r == Put(fs, dst, Dir(o[k := v]))
  {
    PutChild(fs, dst, o, k, v);
    LookupPut(fs, dst, Dir(o[k := v]), []);
    assert dst + [] == dst;
  }

  /** A directory entry merged after `create_dir_all` is the entry `CopiedNode` describes. */
  lemma ChildMerged(fs: Node, dst: Location, o: map<string, Node>, k: string, d: map<string, Node>, child: Node)
    requires CanPut(fs, dst) && child.Dir?
    requires if k in o then o[k] == Dir(d) else d == map[]
    requires MergeInto(d, child).Some?
    ensures CopiedNode(Get(o, k), child) == Some(Dir(MergeInto(d, child).value))
    ensures Put(Put(fs, dst, Dir(o[k := Dir(d)])), dst + [k], Dir(MergeInto(d, child).value))
      == Put(fs, dst, Dir(o[k := Dir(MergeInto(d, child).value)]))
  {
    var entry := Dir(MergeInto(d, child).value);
    PutChild(fs, dst, o[k := Dir(d)], k, entry);
    assert o[k := Dir(d)][k := entry] == o[k := entry];
  }

  /**
   * What a copy that stopped at `k` leaves in every other entry `j`: the
   * copied node when `j` was among the entries already copied, and
   * otherwise what was there before (or nothing). The whole merge fails.
   */
  lemma PartialCopyLeaves(into: map<string, Node>, src: Node, done: set<string>, k: string, got: map<string, Node>, j: string)
    requires src.Dir? && PartialCopy(into, src, done, k, got) && j != k
    ensures j in Copied(src, done) ==> Get(got, j) == CopiedNode(Get(into, j), src.entries[j])
    ensures j !in Copied(src, done) ==> Get(got, j) == Get(into, j)
    ensures MergeInto(into, src).None?
  {
    var o := Overlay(into, src, done);
    assert Get(got, j) == Get(o, j) by {
      assert j in got <==> j in got - {k};
      assert j in o <==> j in o - {k};
      if j in got {
        assert got[j] == (got - {k})[j];
        assert o[j] == (o - {k})[j];
      }
    }
    MergeFails(into, src, k);
  }

  /** Entries written at `k` leave every other entry as it was. */
  lemma UpdatedOnlyAt(o: map<string, Node>, k: string, a: Node, b: Node)
    ensures o[k := a][k := b] - {k} == o - {k}
  {
  }

  /** One failing entry makes the whole merge fail. */
  lemma MergeFails(into: map<string, Node>, src: Node, k: string)
    requires src.Dir? && k in src.entries && !src.entries[k].Other?
    requires CopiedNode(Get(into, k), src.entries[k]).None?
    ensures MergeInto(into, src).None?
  {
  }

  /** A failed `create_dir_all` of entry `k` implies a non-directory is in its way. */
  lemma CreateDirAllKeepsDir(fs: Node, dst: Location, o: map<string, Node>, k: string)
    requires CanPut(fs, dst)
    requires CreateDirAll(Put(fs, dst, Dir(o)), dst + [k]).Err?
    ensures k in o && !o[k].Dir?
  {
    var cur := Put(fs, dst, Dir(o));
    LookupPut(fs, dst, Dir(o), []);
    assert dst + [] == dst;
    PutChild(fs, dst, o, k, Dir(map[]));
    if k !in o {
      CreateDirAllNew(cur, dst, k);
    } else if o[k].Dir? {
      LookupAppend(cur, dst, [k]);
      CreateDirAllExisting(cur, dst + [k]);
    }
  }

  /**
   * A successful `create_dir_all` of entry `k` leaves the directory it
   * found there, or a new empty one.
   */
  lemma CreateDirAllChild(fs: Node, dst: Location, o: map<string, Node>, k: string) returns (d: map<string, Node>)
    requires CanPut(fs, dst)
    requires CreateDirAll(Put(fs, dst, Dir(o)), dst + [k]).Ok?
    ensures CreateDirAll(Put(fs, dst, Dir(o)), dst + [k]).value == Put(fs, dst, Dir(o[k := Dir(d)]))
    ensures Lookup(CreateDirAll(Put(fs, dst, Dir(o)), dst + [k]).value, dst + [k]) == Some(Dir(d))
    ensures if k in o then o[k] == Dir(d) else d == map[]
  {
    var cur := Put(fs, dst, Dir(o));
    LookupPut(fs, dst, Dir(o), []);
    assert dst + [] == dst;
    PutChild(fs, dst, o, k, Dir(map[]));
    CanPutAfterPut(fs, dst, Dir(o));
    if k !in o {
      d := map[];
      CreateDirAllNew(cur, dst, k);
      PutChild(fs, dst, o[k := Dir(d)], k, Dir(d));
    } else if o[k].Dir? {
      d := o[k].entries;
      CreateDirAllExisting(cur, dst + [k]);
      assert o[k := Dir(d)] == o;
    } else {
      CreateDirAllBlocked(cur, dst, k);
      d := map[];
    }
  }

  // ---------------------------------------------------------------
  // What the copy achieves

  /** Dropping the `Other` entries twice is dropping them once. */
  lemma {:induction false} PrunedIdempotent(n: Node)
    ensures Pruned(Pruned(n)) == Pruned(n)
    decreases n
  {
    if n.Dir? {
      var p := Pruned(n);
      forall k | k in p.entries
        ensures Pruned(p.entries[k]) == p.entries[k]
      {
        PrunedIdempotent(n.entries[k]);
      }
      assert Pruned(p).entries == p.entries;
    }
  }

  /** Copying onto nothing reproduces the source without its `Other` entries. */
  lemma {:induction false} CopiedFresh(s: Node)
    requires !s.Other?
    ensures CopiedNode(None, s) == Some(Pruned(s))
    decreases s
  {
    if s.Dir? {
      forall k | k in s.entries && !s.entries[k].Other?
        ensures CopiedNode(Get(map[], k), s.entries[k]) == Some(Pruned(s.entries[k]))
      {
        CopiedFresh(s.entries[k]);
      }
      assert CopiesSucceed(map[], s, s.entries.Keys);
      var m := Overlay(map[], s, s.entries.Keys);
      assert m == Pruned(s).entries;
      assert MergeInto(map[], s) == Some(m);
      assert MergeOrFail(map[], s) == Some(Dir(m));
    }
  }

  /** Copying the same source again onto the result of a copy changes nothing. */
  lemma {:induction false} CopiedTwice(existing: Option<Node>, s: Node)
    requires !s.Other? && CopiedNode(existing, s).Some?
    ensures CopiedNode(CopiedNode(existing, s), s) == CopiedNode(existing, s)
    decreases s
  {
    if s.Dir? {
      var d := if existing.Some? then existing.value.entries else map[];
      var keys := s.entries.Keys;
      assert MergeInto(d, s).Some? by {
        assert MergeOrFail(d, s).Some?;
      }
      var m := Overlay(d, s, keys);
      assert MergeInto(d, s) == Some(m);
      assert CopiedNode(existing, s) == Some(Dir(m));
      forall k | k in Copied(s, keys)
        ensures CopiedNode(Get(m, k), s.entries[k]) == Some(m[k])
      {
        assert Get(m, k) == CopiedNode(Get(d, k), s.entries[k]);
        CopiedTwice(Get(d, k), s.entries[k]);
      }
      assert CopiesSucceed(m, s, keys);
      assert Overlay(m, s, keys) == m;
      assert MergeInto(m, s) == Some(m);
      assert MergeOrFail(m, s) == Some(Dir(m));
    }
  }

  /** `create_dir_all` of a missing location whose parent is a directory. */
  lemma CreateDirAllFresh(fs: Node, dst: Location)
    requires dst != [] && IsDirAt(fs, dst[..|dst| - 1]) && Lookup(fs, dst).None?
    ensures CreateDirAll(fs, dst) == Ok(Put(fs, dst, Dir(map[])))
    ensures CanPut(fs, dst)
  {
    var parent := dst[..|dst| - 1];
    assert dst == parent + [dst[|dst| - 1]];
    CreateDirAllNew(fs, parent, dst[|dst| - 1]);
    CanPutChild(fs, parent, dst[|dst| - 1]);
  }

  /**
   * Copying a directory to a location that does not exist yet, in an
   * existing directory and apart from the source, leaves at the
   * destination the source tree without its `Other` entries, and the
   * source as it was.
   */
  lemma CopyDirAllMirrors(fs: Node, src: Location, dst: Location)
    requires IsDirAt(fs, src) && Diverge(src, dst)
    requires dst != [] && IsDirAt(fs, dst[..|dst| - 1]) && Lookup(fs, dst).None?
    ensures CopyDirAllSpec(fs, src, dst) == Some(Put(fs, dst, Pruned(Lookup(fs, src).value)))
    ensures Lookup(CopyDirAllSpec(fs, src, dst).value, dst) == Some(Pruned(Lookup(fs, src).value))
    ensures Lookup(CopyDirAllSpec(fs, src, dst).value, src) == Lookup(fs, src)
  {
    var s := Lookup(fs, src).value;
    CreateDirAllFresh(fs, dst);
    var fs1 := Put(fs, dst, Dir(map[]));
    DivergeSymmetric(src, dst);
    LookupPutElsewhere(fs, dst, src, Dir(map[]));
    LookupPut(fs, dst, Dir(map[]), []);
    assert dst + [] == dst;
    CopiedFresh(s);
    assert MergeInto(map[], s) == Some(Pruned(s).entries);
    PutPut(fs, dst, Dir(map[]), [], Pruned(s));
    assert dst + [] == dst;
    LookupPut(fs, dst, Pruned(s), []);
    LookupPutElsewhere(fs, dst, src, Pruned(s));
  }

  /**
   * Copying into an existing directory merges: entries the source does
   * not copy keep what they held, and every copied entry is what
   * `CopiedNode` makes of it.
   */
  lemma CopyDirAllMerges(fs: Node, src: Location, dst: Location)
    requires IsDirAt(fs, src) && IsDirAt(fs, dst) && Diverge(src, dst)
    requires CopyDirAllSpec(fs, src, dst).Some?
    ensures var old_ := Lookup(fs, dst).value.entries;
      var s := Lookup(fs, src).value;
      var r := Lookup(CopyDirAllSpec(fs, src, dst).value, dst);
      && r.Some? && r.value.Dir?
      && (forall k :: k in old_ && k !in Copied(s, s.entries.Keys) ==> k in r.value.entries && r.value.entries[k] == old_[k])
      && (forall k :: k in Copied(s, s.entries.Keys) ==> k in r.value.entries && Some(r.value.entries[k]) == CopiedNode(Get(old_, k), s.entries[k]))
  {
    CreateDirAllExisting(fs, dst);
    LookupCanPut(fs, dst);
    var old_ := Lookup(fs, dst).value.entries;
    var s := Lookup(fs, src).value;
    var m := MergeInto(old_, s).value;
    assert CopyDirAllSpec(fs, src, dst) == Some(Put(fs, dst, Dir(m)));
    LookupPut(fs, dst, Dir(m), []);
    assert dst + [] == dst;
    assert m == Overlay(old_, s, s.entries.Keys);
  }

  /** A successful copy changes nothing outside the destination. */
  lemma CopyDirAllElsewhere(fs: Node, src: Location, dst: Location, q: Location)
    requires CopyDirAllSpec(fs, src, dst).Some? && Diverge(dst, q)
    ensures Lookup(CopyDirAllSpec(fs, src, dst).value, q) == Lookup(fs, q)
  {
    var fs1 := CreateDirAll(fs, dst).value;
    CreateDirAllElsewhere(fs, dst, q);
    var m := MergeInto(Lookup(fs1, dst).value.entries, Lookup(fs1, src).value).value;
    LookupPutElsewhere(fs1, dst, q, Dir(m));
  }

  /** The copy fails when the source is not a directory and lies apart from the destination. */
  lemma CopyDirAllNeedsDir(fs: Node, src: Location, dst: Location)
    requires !IsDirAt(fs, src) && Diverge(dst, src)
    ensures CopyDirAllSpec(fs, src, dst).None?
  {
    if CreateDirAll(fs, dst).Ok? {
      CreateDirAllElsewhere(fs, dst, src);
    }
  }
}
